=== FILE: README.md ===
# Manifest updater, modelled in Dafny

This project models the manifest merge of `update_manifests.py`. That script
keeps two JSON catalogues up to date from the assets of a GitHub release: one
for dictionaries (`.dict`) and one for keyboard layouts (`.json`). For each
asset carrying the run's extension, the merge does the following:

- It derives a stable id from the file name, or reuses the id of a prior
  entry with that id or with that file name.
- It makes the id unique within the batch with `_1`, `_2`, … suffixes.
- It overwrites the entry's technical fields (`filename`, `url`, `bytes`,
  `sha256`, `updatedAt`), or creates a new entry.
- It fills the UI fields (`name`, `shortDescription`, `languageTag`). A
  layout takes them from its own JSON. A dictionary takes them from the
  metadata table, or else falls back to a readable form of its id without
  overwriting curated values.

Prior entries the release does not mention are kept. The result is listed by
ascending id, with `schemaVersion` 1 and the release tag.

Files and modules:

| file | module | what it holds |
|---|---|---|
| `options.dfy` | `Options` | `Option` and `GetOr` (Python's `dict.get(key, default)`) |
| `text.dfy` | `Text` | the `str` operations used: `lower`, `replace`, `split`, `join`, `strip`, `str(int)`, string order |
| `identifiers.dfy` | `Identifiers` | `derive_id_from_filename`, including the two anchored regular-expression substitutions, and `derive_readable_name_from_id` |
| `identifier_examples.dfy` | `IdentifierExamples` | both functions worked out on concrete file names |
| `layout_metadata.dfy` | `LayoutMetadata` | the name and the trimmed one-line description of a layout |
| `manifests.dfy` | `Manifests` | the entry type, the two linear searches, and the id and filename indexes of the prior entries |
| `batch_ids.dfy` | `BatchIds` | the suffix loop that makes ids unique, with its termination argument |
| `merge.dfy` | `ManifestMerge` | the merge as a fold of `ProcessAsset` over the assets; this is the specification |
| `merge_properties.dfy` | `MergeProperties` | what the fold guarantees over a whole batch |
| `sorting.dfy` | `Sorting` | the final listing by ascending id |
| `update_manifest.dfy` | `ManifestUpdate` | `update_manifest` itself, as a method with the source's loops, proved to compute the fold |

The method `MergeAssets` keeps the source's local state: the id map, the set
of processed ids and the filename index. It runs the source's loops over them,
with the body of the asset loop in `MergeAsset`. Its loop invariant says the
state equals the fold applied to the assets seen so far, so everything proved
about the fold holds of the map that `UpdateManifest` lists.

## Model

| member | source | states |
|---|---|---|
| `Text.Lower` | update_manifests.py:42 | same length; each character lower-cased (ASCII) |
| `Text.ReplaceChar` | update_manifests.py:42 | same length; exactly the occurrences of one character replaced |
| `Text.RemoveAll` | update_manifests.py:37 | `str.replace(p, '')`, scanning left to right; never longer than its input |
| `Text.RemoveAllAbsent` | update_manifests.py:37 | a string in which the extension does not occur comes back unchanged |
| `Text.RemoveAllTrailing` | update_manifests.py:37 | for a border-free extension such as `.dict`, the occurrence at the very end is always one of those removed |
| `Text.EndsWith` | update_manifests.py:140 | `str.endswith`: the suffix is the last characters of the string |
| `Text.IndexOf` | update_manifests.py:84 | the position of the first occurrence of a character |
| `Text.SplitOn` | update_manifests.py:94 | `str.split(c)`: at least one part, and no part contains `c` |
| `Text.JoinWith` | update_manifests.py:95 | `sep.join(parts)`; `Text.JoinSplit` and `Text.SplitJoin` show it inverts `SplitOn` |
| `Text.JoinSplit` | update_manifests.py:94-95 | joining the parts of a split gives the string back |
| `Text.SplitJoin` | update_manifests.py:94-95 | splitting a join of separator-free parts gives the parts back |
| `Text.StripLeading` | update_manifests.py:84 | removes exactly the leading whitespace, in Python's `str.isspace` sense |
| `Text.StripTrailing` | update_manifests.py:84 | removes exactly the trailing whitespace |
| `Text.StripLeadingAt` | update_manifests.py:84 | the leading whitespace is pinned down by the first non-blank position |
| `Text.StripTrailingAt` | update_manifests.py:84 | the trailing whitespace is pinned down by the last non-blank position |
| `Text.Strip` | update_manifests.py:84 | `str.strip()` as `rstrip` after `lstrip`; `Text.StripCharacterization` and `Text.StrippedAtUnique` pin it down |
| `Text.StripCharacterization` | update_manifests.py:84 | `strip()` keeps a contiguous slice with only whitespace cut away on both sides and non-blank ends |
| `Text.StrippedAtUnique` | update_manifests.py:84 | at most one string satisfies that description, so it determines `strip()` |
| `Text.Decimal` | update_manifests.py:165 | `str(n)`: only digits, with no leading zero unless the number is 0 |
| `Text.DecimalValue` | update_manifests.py:165 | the digits spell `n` |
| `Text.DecimalInjective` | update_manifests.py:165 | different counters give different suffixes |
| `Text.LexLess` | update_manifests.py:234 | Python's order on `str`: by first differing code point, a proper prefix first; a strict total order by the three lemmas below |
| `Text.LexLessIrreflexive` | update_manifests.py:234 | string order is irreflexive |
| `Text.LexLessTransitive` | update_manifests.py:234 | string order is transitive |
| `Text.LexLessTotal` | update_manifests.py:234 | any two different strings are ordered exactly one way |
| `Identifiers.LeftmostMatch` | update_manifests.py:40-41 | the leftmost start of a suffix the pattern accepts, so no earlier start matches |
| `Identifiers.IsVersionSuffix` | update_manifests.py:40 | the whole string matches `[-_]v?\d+(\.\d+)*`, with `\d` read as an ASCII digit |
| `Identifiers.IsDotNumber` | update_manifests.py:41 | the whole string matches `\.\d+`, with `\d` read as an ASCII digit |
| `Identifiers.SubAtEnd` | update_manifests.py:40-41 | an `$`-anchored `re.sub` keeps a prefix and any final newline |
| `Identifiers.Normalize` | update_manifests.py:42 | same length; no space, no `-`, no upper-case ASCII letter |
| `Identifiers.DeriveId` | update_manifests.py:35-42 | a derived id has no space, no `-` and no upper-case ASCII letter |
| `Identifiers.NormalizeKeeps` | update_manifests.py:42 | a string with no upper-case ASCII letter, space or `-` is its own normal form, so normalising twice changes nothing |
| `Identifiers.SubAtEndStrips` | update_manifests.py:40-41 | when a suffix matches and no earlier start does, exactly that suffix goes |
| `Identifiers.SubAtEndKeeps` | update_manifests.py:40-41 | when no suffix matches, the string is unchanged |
| `Identifiers.DeriveIdPlain` | update_manifests.py:35-42 | a name without a version or `.N` ending only loses its extension and is normalised |
| `Identifiers.DeriveIdDropsVersion` | update_manifests.py:40 | a trailing `[-_]v?N(.N)*` after the stem is removed |
| `Identifiers.DeriveIdDropsDotNumber` | update_manifests.py:41 | a trailing `.N` after the stem is removed |
| `Identifiers.VersionStripped` | update_manifests.py:40 | a version suffix at the end of any string is removed whole, and nothing before it |
| `Identifiers.DeriveIdDropsDotThenVersion` | update_manifests.py:39-41 | for any stem, in `stem.N` followed by a version suffix, both the suffix and the `.N` it leaves are removed (`en2.5_v2.dict` gives `en2`) |
| `Identifiers.DeriveIdDropsLastDotNumberOnly` | update_manifests.py:38-41 | in a name without `-` or `_`, only the final `.N` is removed; an earlier `.N` stays in the id |
| `Identifiers.Capitalize` | update_manifests.py:95 | `str.capitalize()`: first character upper-cased, the rest lower-cased |
| `Identifiers.ReadableName` | update_manifests.py:91-95 | `derive_readable_name_from_id`: split on `_`, capitalise each part, join with spaces; `Identifiers.ReadableNameAt` and `Identifiers.ReadableNameWords` state what it gives |
| `Identifiers.ReadableNameAt` | update_manifests.py:91-95 | same length as the id; position by position, `_` becomes a space and each word is capitalised |
| `Identifiers.ReadableNameWords` | update_manifests.py:91-95 | for an id without spaces, one capitalised word per `_`-separated part, joined by single spaces |
| `IdentifierExamples.DeriveIdVersionExample` | update_manifests.py:35-42 | `en_base_v2.dict` gives `en_base` |
| `IdentifierExamples.DeriveIdDottedVersionExample` | update_manifests.py:35-42 | `x_v1.2.3.dict` gives `x` |
| `IdentifierExamples.DeriveIdPlainExample` | update_manifests.py:35-42 | `de_base.dict` gives `de_base` |
| `IdentifierExamples.DeriveIdLowersExample` | update_manifests.py:35-42 | `Cyrillic_Translite.json` gives `cyrillic_translite` |
| `IdentifierExamples.NormalizeExample` | update_manifests.py:42 | `Cyrillic_Translite` normalises to `cyrillic_translite` |
| `IdentifierExamples.DeriveIdDotExample` | update_manifests.py:35-42 | `it.5.dict` gives `it` |
| `IdentifierExamples.DeriveIdMultiDotExample` | update_manifests.py:35-42 | `it.1.0.dict` gives `it.1`, not `it` |
| `IdentifierExamples.DeriveIdDotThenVersionExample` | update_manifests.py:35-42 | `x.5_v2.dict` gives `x` |
| `IdentifierExamples.ReadableNameExample` | update_manifests.py:91-95 | `de_base` gives `De Base` |
| `LayoutMetadata.FirstLine` | update_manifests.py:84 | `split('\n')[0]`: a newline-free prefix, followed by a newline unless it is the whole string |
| `LayoutMetadata.FirstLineAt` | update_manifests.py:84 | the first line ends exactly at the first newline |
| `LayoutMetadata.ShortDescription` | update_manifests.py:82-84 | empty stays empty; otherwise the first line with its surrounding whitespace cut, newline-free |
| `LayoutMetadata.ShortDescriptionOf` | update_manifests.py:82-84 | a first line padded with blanks yields exactly that line, whatever follows |
| `LayoutMetadata.LayoutFields` | update_manifests.py:75-89 | a failed download or parse gives two empty strings; a missing key gives an empty string |
| `Manifests.FindExistingItemById` | update_manifests.py:98-103 | found exactly when some entry has the id, and then it is the first such entry |
| `Manifests.FindExistingItemByFilename` | update_manifests.py:106-111 | found exactly when some entry has the filename, and then it is the first such entry |
| `Manifests.IndexById` | update_manifests.py:134 | the keys are exactly the prior ids, each entry filed under its own id |
| `Manifests.IndexByIdLastWins` | update_manifests.py:134 | of entries sharing an id, the last one is kept |
| `Manifests.FilenameIndex` | update_manifests.py:127-130 | the keys are exactly the filenames present in prior entries |
| `Manifests.FilenameIndexLastWins` | update_manifests.py:127-130 | each filename maps to the id of the last entry with that filename |
| `Manifests.BuildFilenameIndex` | update_manifests.py:127-130 | the source's loop builds that index |
| `BatchIds.Candidate` | update_manifests.py:162-165 | the `k`-th try is the original id, then the id with `_` and the decimal counter appended |
| `BatchIds.CandidateInjective` | update_manifests.py:165 | no id is tried twice |
| `BatchIds.TriedShrinks` | update_manifests.py:164-166 | each taken try shrinks the finite set still to avoid, so the loop ends |
| `BatchIds.FreeIndex` | update_manifests.py:164-166 | the first try that is free, with every earlier try taken |
| `BatchIds.FreeId` | update_manifests.py:162-166 | the candidate at the first free index; `BatchIds.FreeIdFresh` states what it guarantees |
| `BatchIds.FreeIdFresh` | update_manifests.py:162-166 | the id settled on is new to the batch; it is an existing key only if it is the original id, which is kept whenever it is free |
| `BatchIds.UniqueId` | update_manifests.py:162-166 | the source's `while` loop returns that id |
| `ManifestMerge.Initial` | update_manifests.py:134-135 | the starting map is well keyed and its keys are exactly the prior ids; nothing is processed yet |
| `ManifestMerge.ResolveId` | update_manifests.py:144-159 | the derived id when a prior entry has it; otherwise the non-empty id recorded for the exact filename (the last prior entry with it) when there is one; otherwise the derived id |
| `ManifestMerge.AssignId` | update_manifests.py:144-168 | the id used is new to the batch, and names an existing entry only when it is the resolved id itself |
| `ManifestMerge.NewItem` | update_manifests.py:194-203 | a new entry has the assigned id and exactly the technical fields an update would write, and no UI field yet |
| `ManifestMerge.Touch` | update_manifests.py:181-192 | an update sets filename, url, bytes, sha256 and updatedAt and leaves every other field alone |
| `ManifestMerge.FillUi` | update_manifests.py:206-228 | the UI field rules for layouts, listed dictionaries and unlisted dictionaries; the id and technical fields are untouched |
| `ManifestMerge.ProcessAsset` | update_manifests.py:138-230 | a foreign asset changes nothing; otherwise exactly one id is added to the keys and to the processed set, no other entry changes, and consistency is kept |
| `ManifestMerge.Fold` | update_manifests.py:138-230 | the asset loop as a fold of `ProcessAsset`; its properties are the `MergeProperties` lemmas |
| `ManifestMerge.Merge` | update_manifests.py:134-230 | the fold started from the prior entries keyed by id; `ManifestUpdate.MergeAssets` is proved to compute it |
| `ManifestMerge.AssignedIds` | update_manifests.py:138-168 | at most one id per asset |
| `ManifestMerge.Relevant` | update_manifests.py:139-141 | every element carries the extension and comes from the batch, and every asset carrying the extension is kept |
| `MergeProperties.FoldConsistent` | update_manifests.py:134-230 | a batch keeps the map well keyed and deletes no entry |
| `MergeProperties.FoldKeys` | update_manifests.py:138-204 | the final keys are the starting keys plus the assigned ids; the processed set is exactly the assigned ids |
| `MergeProperties.AssignedIdsDistinct` | update_manifests.py:161-168 | the ids assigned within one batch are pairwise distinct |
| `MergeProperties.AssignedIdsCount` | update_manifests.py:138-141 | one id per asset that carries the extension |
| `MergeProperties.FoldIgnoresForeign` | update_manifests.py:139-141 | removing the assets without the extension gives the same result |
| `MergeProperties.FoldUntouched` | update_manifests.py:134-204 | an entry whose id is not assigned in the batch comes out unchanged |
| `MergeProperties.ProcessAssetEntry` | update_manifests.py:181-204 | the entry filed for an asset has its id, and the asset's filename, url, size and hash, and the run's timestamp |
| `MergeProperties.ProcessAssetKeepsCuratedUi` | update_manifests.py:221-228 | updating an unlisted dictionary never overwrites a non-empty name, short description or language tag |
| `MergeProperties.TakenStableIdAddsEntry` | update_manifests.py:161-204 | a second asset resolving to an id the batch already took always adds a new entry |
| `MergeProperties.MergeKeepsPriorIds` | update_manifests.py:134-230 | every prior id is still a key after the batch, and the map stays well keyed |
| `MergeProperties.MergeUnassignedPrior` | update_manifests.py:134-192 | with distinct prior ids, a prior entry whose id no asset takes comes out exactly as read |
| `Sorting.SortedDistinct` | update_manifests.py:233-234 | a listing sorted by id has no id twice |
| `Sorting.Insert` | update_manifests.py:234 | inserting keeps the listing sorted and adds exactly one element |
| `Sorting.SortById` | update_manifests.py:233-234 | the map's entries, each exactly once, in ascending id order |
| `Sorting.SortedUnique` | update_manifests.py:234 | two sorted listings with the same elements are equal |
| `Sorting.SortedListingUnique` | update_manifests.py:233-234 | the output order is forced: any sorted listing of the map is the same |
| `ManifestUpdate.StableId` | update_manifests.py:144-159 | the source's lookup branches compute `ResolveId` |
| `ManifestUpdate.UpdateTechnicalFields` | update_manifests.py:181-192 | the source's field assignments compute `Touch` |
| `ManifestUpdate.FillUiFields` | update_manifests.py:206-228 | the source's field assignments compute `FillUi` |
| `ManifestUpdate.MergeAsset` | update_manifests.py:143-230 | the body of the asset loop computes one step of the fold, `ProcessAsset` |
| `ManifestUpdate.MergeAssets` | update_manifests.py:127-231 | the source's index building and asset loop compute `Merge`, the whole fold |
| `ManifestUpdate.UpdateManifest` | update_manifests.py:114-242 | schema version 1, the release tag and the timestamp; the items are the merged map's entries, strictly ascending by id, with every prior id present exactly once |

## Left out

- The file I/O: `load_existing_manifest`, `load_dicts_metadata` and writing the manifest (update_manifests.py:45-72, 244-249). The prior entries and the metadata table are inputs, and the manifest is the result.
- `compute_sha256`, `get_file_size` and the layout download and `json.loads` (update_manifests.py:22-32, 77-79, 86-89). They need the network and a hash library, so each asset carries its hash and its parsed layout document, and `None` stands for a failed download or parse.
- `datetime.utcnow()`. The source reads the clock for every entry and again for `generatedAt`; the model takes one formatted timestamp `now` for all of them.
- `fetch_release_assets` and `main` (update_manifests.py:254-390): the HTTP client, the command line and the split of assets by extension. `update_manifest` is modelled for any extension and any asset list.
- The diagnostics printed to standard error. They have no effect on the result.
- Entries whose JSON lacks an `id`, and JSON values that are not strings where strings are expected (a `null` name, a numeric description). The model types every id as a string and every other field as an optional string or integer.
- Entry keys other than the nine modelled fields. The source copies each prior entry whole (update_manifests.py:134), so any other JSON key is written back out; the model's `Item` has no place for such keys.
- The lookup on update_manifests.py:156 assigns `existing_item` but never reads it again, so it is not modelled.
- The sort algorithm: Python's `list.sort` is replaced by insertion into place. `Sorting.SortedListingUnique` shows that the order, and so the output, does not depend on the algorithm.
- `Text.Lower`: only ASCII letters are mapped, whereas Python's `str.lower` maps every cased Unicode character.
- `Identifiers.Capitalize`: upper- and lower-cases ASCII letters only, whereas Python's `str.capitalize` maps every cased Unicode character.
- `Identifiers.IsDottedNumber`: `\d` is taken as `0`–`9`, whereas Python's `re` also accepts other Unicode decimal digits in `str` patterns.
- `Identifiers.IsDotNumber`: `\d` is taken as `0`–`9`, as in `Identifiers.IsDottedNumber`.
- `Identifiers.IsVersionSuffix`: `\d` is taken as `0`–`9`, as in `Identifiers.IsDottedNumber`.

## Where the code and its documentation differ

The design notes describe a few behaviours that the code does not have. The
model follows the code.

- **Matching prior entries.** The documentation matches a prior entry by the
  id derived from its filename. The code matches by the exact filename
  (`id_by_filename`, update_manifests.py:127-130, 154), after first trying the
  derived id.
- **Output order.** The documentation keeps entries in insertion order. The
  code sorts them by id (update_manifests.py:234).
- **Schema version.** The loader never checks the `schemaVersion` of the file
  it reads.
- **Curated UI fields.** The documentation says curated UI fields are never
  blanked. For layouts, the code always overwrites `name` and
  `shortDescription`, with empty strings when the layout JSON cannot be read
  (update_manifests.py:209-211). For a dictionary listed in the metadata
  table, the code overwrites `name`, `shortDescription` and `languageTag` with
  the table's values, and with an empty string for a key the table entry
  lacks (update_manifests.py:216-220).
- **Re-runs.** The documentation calls a re-run idempotent. A re-run can
  fail to be idempotent when two assets of one batch resolve to the same id,
  though it does not always fail. Take `a.dict` and
  `a_1.dict`, which both derive `a`: the first run files them as `a` and
  `a_1`. A second run over the same release files `a.dict` as `a` again.
  `a_1.dict` also resolves to `a`, which the batch has now taken. `a_1` names
  another entry, so it gets `a_2`, a new entry (`MergeProperties.TakenStableIdAddsEntry`).
- **Multi-part dot versions.** The comment at update_manifests.py:38 names
  `.1.0` among the version patterns that are removed. The `\.\d+$`
  substitution on update_manifests.py:41 removes only the last group, and the
  version pattern needs a `-` or `_` in front, so `it.1.0.dict` gives the id
  `it.1` (`IdentifierExamples.DeriveIdMultiDotExample`).
- **Hash failures.** The documentation tolerates a failure on one asset. In
  the code, `compute_sha256` raises and the whole run stops. In the model the
  hash is an input.

=== FILE: batch_ids.dfy ===
/** Making an id unique within one release batch (update_manifests.py,
    the `while` loop of `update_manifest`): the first of `o`, `o_1`, `o_2`, …
    that no earlier asset of the batch took and that is not some other entry's
    id already. */
module BatchIds {
  import opened Text

  /** The `k`-th id tried for `o`: `o` itself, then `o_1`, `o_2`, … */
  function Candidate(o: string, k: nat): (c: string)
    ensures k == 0 ==> c == o
    ensures k > 0 ==> |c| > |o| + 1 && c[..|o| + 1] == o + "_" && c[|o| + 1..] == Decimal(k)
  {
    if k == 0 then o else o + "_" + Decimal(k)
  }

  /** No id is tried twice. */
  lemma CandidateInjective(o: string, j: nat, k: nat)
    requires Candidate(o, j) == Candidate(o, k)
    ensures j == k
  {
    if j > 0 && k > 0 {
      DecimalInjective(j, k);
    }
  }

  /** The loop condition: `c` was taken by this batch, or is the id of an entry
      other than the one `o` names. */
  predicate Taken(o: string, processed: set<string>, keys: set<string>, c: string) {
    c in processed || (c in keys && c != o)
  }

  /** The ids tried before the `k`-th. */
  function Tried(o: string, k: nat): (t: set<string>)
    ensures forall j :: 0 <= j < k ==> Candidate(o, j) in t
  {
    set j | 0 <= j < k :: Candidate(o, j)
  }

  /** Each id tried and found taken removes one element from the finite set of
      ids to avoid, which is why the search ends. */
  lemma TriedShrinks(o: string, avoid: set<string>, k: nat)
    requires Candidate(o, k) in avoid
    ensures |avoid - Tried(o, k + 1)| < |avoid - Tried(o, k)|
  {
    var c := Candidate(o, k);
    assert Tried(o, k + 1) == Tried(o, k) + {c};
    if c in Tried(o, k) {
      var j :| 0 <= j < k && Candidate(o, j) == c;
      CandidateInjective(o, j, k);
    }
    assert avoid - Tried(o, k + 1) == (avoid - Tried(o, k)) - {c};
  }

  /** The index of the first free id from the `k`-th on. */
  function FreeIndex(o: string, processed: set<string>, keys: set<string>, k: nat): (r: nat)
    ensures k <= r
    ensures !Taken(o, processed, keys, Candidate(o, r))
    ensures forall j :: k <= j < r ==> Taken(o, processed, keys, Candidate(o, j))
    decreases |(processed + keys) - Tried(o, k)|
  {
    if Taken(o, processed, keys, Candidate(o, k)) then
      TriedShrinks(o, processed + keys, k);
      FreeIndex(o, processed, keys, k + 1)
    else k
  }

  /** The id the loop settles on. */
  function FreeId(o: string, processed: set<string>, keys: set<string>): string {
    Candidate(o, FreeIndex(o, processed, keys, 0))
  }

  /** The id found is new to the batch, and it is an existing entry's id only
      when it is `o` itself; `o` is kept whenever it is free. */
  lemma FreeIdFresh(o: string, processed: set<string>, keys: set<string>)
    ensures FreeId(o, processed, keys) !in processed
    ensures FreeId(o, processed, keys) in keys ==> FreeId(o, processed, keys) == o
    ensures !Taken(o, processed, keys, o) ==> FreeId(o, processed, keys) == o
    ensures FreeId(o, processed, keys) != o ==> Taken(o, processed, keys, o)
  {
    var r := FreeIndex(o, processed, keys, 0);
    if r > 0 {
      assert Taken(o, processed, keys, Candidate(o, 0));
      assert FreeId(o, processed, keys) != o;
    }
  }

  /** The suffix loop of `update_manifest`. */
  method UniqueId(o: string, processed: set<string>, keys: set<string>) returns (id: string)
    ensures id == FreeId(o, processed, keys)
    ensures id !in processed && (id in keys ==> id == o)
  {
    id := o;
    var counter: nat := 1;
    while id in processed || (id in keys && id != o)
      invariant id == Candidate(o, counter - 1)
      invariant FreeIndex(o, processed, keys, counter - 1) == FreeIndex(o, processed, keys, 0)
      decreases FreeIndex(o, processed, keys, 0) - (counter - 1)
    {
      id := o + "_" + Decimal(counter);
      counter := counter + 1;
    }
    FreeIdFresh(o, processed, keys);
  }
}

=== FILE: identifier_examples.dfy ===
/** Worked examples of `derive_id_from_filename` and
    `derive_readable_name_from_id` (update_manifests.py) on the file names the
    release assets carry. */
module IdentifierExamples {
  import opened Text
  import opened Identifiers

  /** Two characters that never stand next to each other in `s` rule out every
      occurrence of a pattern that starts with them. */
  lemma AbsentByPair(s: string, p: string)
    requires |p| >= 2
    requires forall i :: 0 <= i < |s| - 1 ==> !(s[i] == p[0] && s[i + 1] == p[1])
    ensures !Occurs(s, p)
  {
    forall i ensures !OccursAt(s, p, i) {
      if 0 <= i && i + |p| <= |s| {
        assert s[i..i + |p|][0] == s[i] && s[i..i + |p|][1] == s[i + 1];
      }
    }
  }

  /** A pattern whose first character `s` lacks does not occur in `s`. */
  lemma AbsentByFirst(s: string, p: string)
    requires p != [] && p[0] !in s
    ensures !Occurs(s, p)
  {
    forall i ensures !OccursAt(s, p, i) {
      if 0 <= i && i + |p| <= |s| {
        assert s[i..i + |p|][0] == s[i];
      }
    }
  }

  lemma ExtensionsBorderless()
    ensures Borderless(".dict") && Borderless(".json")
  {
    FirstCharOnceIsBorderless(".dict");
    FirstCharOnceIsBorderless(".json");
  }

  lemma DeriveIdVersionExample()
    ensures DeriveId("en_base_v2.dict", ".dict") == "en_base"
  {
    var stem, version, ext := "en_base", "_v2", ".dict";
    NormalizeKeeps(stem);
    assert stem + version + ext == "en_base_v2.dict";
    assert IsVersionSuffix(version) by {
      assert version[2..] == "2";
    }
    AbsentByFirst(stem + version, ext);
    ExtensionsBorderless();
    DeriveIdDropsVersion(stem, version, ext);
  }

  lemma DeriveIdDottedVersionExample()
    ensures DeriveId("x_v1.2.3.dict", ".dict") == "x"
  {
    var stem, version, ext := "x", "_v1.2.3", ".dict";
    NormalizeKeeps(stem);
    assert stem + version + ext == "x_v1.2.3.dict";
    assert IsVersionSuffix(version);
    AbsentByPair(stem + version, ext);
    ExtensionsBorderless();
    DeriveIdDropsVersion(stem, version, ext);
  }

  lemma DeriveIdPlainExample()
    ensures DeriveId("de_base.dict", ".dict") == "de_base"
  {
    var stem, ext := "de_base", ".dict";
    NormalizeKeeps(stem);
    assert stem + ext == "de_base.dict";
    AbsentByFirst(stem, ext);
    ExtensionsBorderless();
    DeriveIdPlain(stem, ext);
  }

  lemma DeriveIdLowersExample()
    ensures DeriveId("Cyrillic_Translite.json", ".json") == "cyrillic_translite"
  {
    var stem, ext := "Cyrillic_Translite", ".json";
    NormalizeExample();
    assert stem + ext == "Cyrillic_Translite.json";
    AbsentByFirst(stem, ext);
    ExtensionsBorderless();
    DeriveIdPlain(stem, ext);
  }

  lemma NormalizeExample()
    ensures Normalize("Cyrillic_Translite") == "cyrillic_translite"
  {
  }

  lemma DeriveIdDotExample()
    ensures DeriveId("it.5.dict", ".dict") == "it"
  {
    var stem, digits, ext := "it", "5", ".dict";
    NormalizeKeeps(stem);
    assert stem + "." + digits + ext == "it.5.dict";
    AbsentByPair(stem + "." + digits, ext);
    ExtensionsBorderless();
    DeriveIdDropsDotNumber(stem, digits, ext);
  }

  /** Only the final `.N` is dropped: `it.1.0.dict` gives `it.1`. */
  lemma DeriveIdMultiDotExample()
    ensures DeriveId("it.1.0.dict", ".dict") == "it.1"
  {
    var stem, digits, ext := "it.1", "0", ".dict";
    NormalizeKeeps(stem);
    assert stem + "." + digits + ext == "it.1.0.dict";
    AbsentByPair(stem + "." + digits, ext);
    ExtensionsBorderless();
    DeriveIdDropsLastDotNumberOnly(stem, digits, ext);
  }

  /** A `.N` left behind by the version suffix goes too: `x.5_v2.dict` gives
      `x`. */
  lemma DeriveIdDotThenVersionExample()
    ensures DeriveId("x.5_v2.dict", ".dict") == "x"
  {
    var stem, digits, version, ext := "x", "5", "_v2", ".dict";
    NormalizeKeeps(stem);
    assert stem + "." + digits + version + ext == "x.5_v2.dict";
    assert IsVersionSuffix(version) by {
      assert version[2..] == "2";
    }
    AbsentByPair(stem + "." + digits + version, ext);
    ExtensionsBorderless();
    DeriveIdDropsDotThenVersion(stem, digits, version, ext);
  }

  lemma ReadableNameExample()
    ensures ReadableName("de_base") == "De Base"
  {
    var id, expected := "de_base", "De Base";
    assert forall i :: 0 <= i < |id| ==> WordCase(id, i) == expected[i];
    ReadableNameAt(id);
  }
}

=== FILE: identifiers.dfy ===
/** Identifier derivation: from an asset's file name to the id it is stored
    under, and from an id back to a readable display name
    (update_manifests.py, `derive_id_from_filename` and
    `derive_readable_name_from_id`). */
module Identifiers {
  import opened Text

  /** The whole of `w` matches `\d+(\.\d+)*`: runs of digits joined by single dots. */
  predicate IsDottedNumber(w: string) {
    && |w| >= 1
    && IsDigit(w[0]) && IsDigit(w[|w| - 1])
    && (forall i :: 0 <= i < |w| ==> IsDigit(w[i]) || w[i] == '.')
    && (forall i :: 0 <= i < |w| - 1 && w[i] == '.' ==> w[i + 1] != '.')
  }

  /** The whole of `w` matches `[-_]v?\d+(\.\d+)*`, the version pattern. */
  predicate IsVersionSuffix(w: string) {
    && |w| >= 2
    && (w[0] == '-' || w[0] == '_')
    && (IsDottedNumber(w[1..]) || (w[1] == 'v' && IsDottedNumber(w[2..])))
  }

  /** The whole of `w` matches `\.\d+`. */
  predicate IsDotNumber(w: string) {
    |w| >= 2 && w[0] == '.' && forall i :: 1 <= i < |w| ==> IsDigit(w[i])
  }

  /** The leftmost start position, from `i` on, of a suffix of `s` that
      `matches` accepts; `|s|` when there is none. This is where Python's
      regular-expression search finds a pattern anchored at the end. */
  function LeftmostMatch(s: string, i: nat, matches: string -> bool): (k: nat)
    requires i <= |s|
    ensures i <= k <= |s|
    ensures k < |s| ==> matches(s[k..])
    ensures forall j :: i <= j < k ==> !matches(s[j..])
    decreases |s| - i
  {
    if i == |s| then |s|
    else if matches(s[i..]) then i
    else LeftmostMatch(s, i + 1, matches)
  }

  /** `re.sub(pattern + '$', '', s)` for a pattern whose matches are non-empty
      and end in a digit. Python's `$` also matches just before a final
      newline, so the suffix is looked for before such a newline, which stays. */
  function SubAtEnd(s: string, matches: string -> bool): (r: string)
    ensures exists k :: 0 <= k <= |s| && r == s[..k] + (if EndsWithNewline(s) then "\n" else "")
  {
    var body := if EndsWithNewline(s) then s[..|s| - 1] else s;
    var k := LeftmostMatch(body, 0, matches);
    assert body[..k] == s[..k];
    body[..k] + s[|body|..]
  }

  predicate EndsWithNewline(s: string) {
    |s| > 0 && s[|s| - 1] == '\n'
  }

  /** `.lower().replace(' ', '_').replace('-', '_')` */
  function Normalize(s: string): (r: string)
    ensures |r| == |s|
    ensures forall i :: 0 <= i < |r| ==> r[i] != ' ' && r[i] != '-' && !IsAsciiUpper(r[i])
  {
    ReplaceChar(ReplaceChar(Lower(s), ' ', '_'), '-', '_')
  }

  /** A string already in normal form (no upper-case ASCII letter, no space,
      no hyphen) is its own normal form; so normalising twice changes nothing. */
  lemma NormalizeKeeps(s: string)
    requires forall i :: 0 <= i < |s| ==> s[i] != ' ' && s[i] != '-' && !IsAsciiUpper(s[i])
    ensures Normalize(s) == s
  {
    var r := Normalize(s);
    forall i | 0 <= i < |s| ensures r[i] == s[i] {
      assert Lower(s)[i] == s[i];
    }
  }

  /** `derive_id_from_filename`: drop the extension, then one version suffix,
      then one trailing `.N`, then normalise case and separators. */
  function DeriveId(filename: string, extension: string): (id: string)
    ensures forall i :: 0 <= i < |id| ==> id[i] != ' ' && id[i] != '-' && !IsAsciiUpper(id[i])
  {
    var stem := RemoveAll(filename, extension);
    var unversioned := SubAtEnd(stem, IsVersionSuffix);
    var trimmed := SubAtEnd(unversioned, IsDotNumber);
    Normalize(trimmed)
  }

  // ---------------------------------------------------------------------------
  // What the two suffix patterns strip

  /** Past its first character a version suffix holds digits, dots and a 'v' only. */
  lemma VersionSuffixTail(w: string)
    requires IsVersionSuffix(w)
    ensures forall i :: 0 < i < |w| ==> IsDigit(w[i]) || w[i] == '.' || w[i] == 'v'
  {
    if w[1] == 'v' && IsDottedNumber(w[2..]) {
      forall i | 2 <= i < |w| ensures IsDigit(w[i]) || w[i] == '.' {
        assert w[i] == w[2..][i - 2];
      }
    } else {
      forall i | 1 <= i < |w| ensures IsDigit(w[i]) || w[i] == '.' {
        assert w[i] == w[1..][i - 1];
      }
    }
  }

  /** When `s` ends in exactly one match and no earlier suffix matches, the
      substitution leaves what precedes it. */
  lemma SubAtEndStrips(s: string, k: nat, matches: string -> bool)
    requires k < |s| && !EndsWithNewline(s)
    requires matches(s[k..])
    requires forall j :: 0 <= j < k ==> !matches(s[j..])
    ensures SubAtEnd(s, matches) == s[..k]
  {
    var r := LeftmostMatch(s, 0, matches);
    assert r == k;
  }

  /** With no matching suffix, the substitution changes nothing. */
  lemma SubAtEndKeeps(s: string, matches: string -> bool)
    requires !EndsWithNewline(s)
    requires forall j :: 0 <= j < |s| ==> !matches(s[j..])
    ensures SubAtEnd(s, matches) == s
  {
  }

  /** A stem that is empty or ends in neither a digit nor a newline has no
      suffix that either pattern matches. */
  predicate PlainEnding(stem: string) {
    stem == [] || (!IsDigit(stem[|stem| - 1]) && stem[|stem| - 1] != '\n')
  }

  lemma PlainEndingUnmatched(stem: string)
    requires PlainEnding(stem)
    ensures SubAtEnd(stem, IsVersionSuffix) == stem
    ensures SubAtEnd(stem, IsDotNumber) == stem
  {
    forall j | 0 <= j < |stem| ensures !IsVersionSuffix(stem[j..]) && !IsDotNumber(stem[j..]) {
      var w := stem[j..];
      assert w[|w| - 1] == stem[|stem| - 1];
    }
    SubAtEndKeeps(stem, IsVersionSuffix);
    SubAtEndKeeps(stem, IsDotNumber);
  }

  /** A file name that is a plain stem plus the extension keeps the whole stem. */
  lemma {:induction false} DeriveIdPlain(stem: string, extension: string)
    requires extension != [] && Borderless(extension)
    requires !Occurs(stem, extension)
    requires PlainEnding(stem)
    ensures DeriveId(stem + extension, extension) == Normalize(stem)
  {
    RemoveAllTrailing(stem, extension);
    RemoveAllAbsent(stem, extension);
    PlainEndingUnmatched(stem);
  }

  /** `en_base_v2.dict` gives `en_base`: the version suffix after a plain stem
      is removed whole. */
  lemma {:induction false} DeriveIdDropsVersion(stem: string, version: string, extension: string)
    requires extension != [] && Borderless(extension)
    requires IsVersionSuffix(version)
    requires !Occurs(stem + version, extension)
    requires PlainEnding(stem)
    ensures DeriveId(stem + version + extension, extension) == Normalize(stem)
  {
    var s := stem + version;
    RemoveAllTrailing(s, extension);
    RemoveAllAbsent(s, extension);
    assert RemoveAll(s + extension, extension) == s;
    VersionStripped(stem, version);
    PlainEndingUnmatched(stem);
  }

  /** A version suffix at the end of any string is removed whole: no match can
      start earlier, since past its first character a match holds no `-` or
      `_`. */
  lemma VersionStripped(p: string, version: string)
    requires IsVersionSuffix(version)
    ensures SubAtEnd(p + version, IsVersionSuffix) == p
  {
    var s := p + version;
    VersionSuffixTail(version);
    assert IsDigit(version[|version| - 1]) by {
      if version[1] == 'v' && IsDottedNumber(version[2..]) {
        assert version[2..][|version| - 3] == version[|version| - 1];
      } else {
        assert version[1..][|version| - 2] == version[|version| - 1];
      }
    }
    assert s[|s| - 1] == version[|version| - 1];
    forall j | 0 <= j < |p| ensures !IsVersionSuffix(s[j..]) {
      var w := s[j..];
      assert w[|p| - j] == version[0];
      if IsVersionSuffix(w) {
        VersionSuffixTail(w);
      }
    }
    assert s[|p|..] == version;
    SubAtEndStrips(s, |p|, IsVersionSuffix);
    assert s[..|p|] == p;
  }

  /** `x.5_v2.dict` gives `x`, and `en2.5_v2.dict` gives `en2`: a version
      suffix is removed first, and then the `.N` it leaves at the end. */
  lemma {:induction false} DeriveIdDropsDotThenVersion(stem: string, digits: string, version: string,
                                                       extension: string)
    requires extension != [] && Borderless(extension)
    requires |digits| >= 1 && forall i :: 0 <= i < |digits| ==> IsDigit(digits[i])
    requires IsVersionSuffix(version)
    requires !Occurs(stem + "." + digits + version, extension)
    ensures DeriveId(stem + "." + digits + version + extension, extension) == Normalize(stem)
  {
    var s := stem + "." + digits + version;
    RemoveAllTrailing(s, extension);
    RemoveAllAbsent(s, extension);
    assert RemoveAll(s + extension, extension) == s;
    VersionStripped(stem + "." + digits, version);
    DotNumberStripped(stem, digits);
  }

  /** Only the last `.N` goes: in a name without `-` or `_`, such as
      `it.1.0.dict`, the version pattern finds nothing and the `.N` pattern
      removes just the final group, leaving `it.1`. */
  lemma {:induction false} DeriveIdDropsLastDotNumberOnly(stem: string, digits: string, extension: string)
    requires extension != [] && Borderless(extension)
    requires |digits| >= 1 && forall i :: 0 <= i < |digits| ==> IsDigit(digits[i])
    requires !Occurs(stem + "." + digits, extension)
    requires '-' !in stem && '_' !in stem
    ensures DeriveId(stem + "." + digits + extension, extension) == Normalize(stem)
  {
    var s := stem + "." + digits;
    RemoveAllTrailing(s, extension);
    RemoveAllAbsent(s, extension);
    assert RemoveAll(s + extension, extension) == s;
    assert s[|s| - 1] == digits[|digits| - 1];
    forall j | 0 <= j < |s| ensures !IsVersionSuffix(s[j..]) {
      assert s[j..][0] == s[j];
      assert j < |stem| ==> s[j] == stem[j] && stem[j] in stem;
      assert j == |stem| ==> s[j] == '.';
      assert j > |stem| ==> s[j] == digits[j - |stem| - 1];
    }
    SubAtEndKeeps(s, IsVersionSuffix);
    DotNumberStripped(stem, digits);
  }

  /** No suffix of `stem + "." + digits` is a version suffix when the stem
      does not end in a digit: the dot would have to follow a digit. */
  lemma NoVersionBeforeDot(stem: string, digits: string, j: int)
    requires forall i :: 0 <= i < |digits| ==> IsDigit(digits[i])
    requires stem != [] && !IsDigit(stem[|stem| - 1])
    requires 0 <= j < |stem + "." + digits|
    ensures !IsVersionSuffix((stem + "." + digits)[j..])
  {
    var s := stem + "." + digits;
    var w := s[j..];
    if j >= |stem| {
      assert w[0] == s[j];
      assert j == |stem| ==> s[j] == '.';
      assert j > |stem| ==> s[j] == digits[j - |stem| - 1];
    } else {
      var q := |stem| - 1 - j;
      assert w[q] == stem[|stem| - 1] && w[q + 1] == '.';
      if q == 1 && |w| >= 3 {
        assert w[2..][0] == '.';
      } else if q == 0 && |w| >= 2 {
        assert w[1..][0] == '.';
      }
    }
  }

  /** `de_base.2.dict` gives `de_base`: a trailing `.N` after a stem that does
      not end in a digit is removed. */
  lemma {:induction false} DeriveIdDropsDotNumber(stem: string, digits: string, extension: string)
    requires extension != [] && Borderless(extension)
    requires |digits| >= 1 && forall i :: 0 <= i < |digits| ==> IsDigit(digits[i])
    requires !Occurs(stem + "." + digits, extension)
    requires stem != [] && !IsDigit(stem[|stem| - 1])
    ensures DeriveId(stem + "." + digits + extension, extension) == Normalize(stem)
  {
    var s := stem + "." + digits;
    RemoveAllTrailing(s, extension);
    RemoveAllAbsent(s, extension);
    DotNumberKeptByVersionPattern(stem, digits);
    DotNumberStripped(stem, digits);
  }

  /** The version pattern finds nothing in `stem + "." + digits`. */
  lemma DotNumberKeptByVersionPattern(stem: string, digits: string)
    requires |digits| >= 1 && forall i :: 0 <= i < |digits| ==> IsDigit(digits[i])
    requires stem != [] && !IsDigit(stem[|stem| - 1])
    ensures SubAtEnd(stem + "." + digits, IsVersionSuffix) == stem + "." + digits
  {
    var s := stem + "." + digits;
    assert s[|s| - 1] == digits[|digits| - 1];
    forall j | 0 <= j < |s| ensures !IsVersionSuffix(s[j..]) {
      NoVersionBeforeDot(stem, digits, j);
    }
    SubAtEndKeeps(s, IsVersionSuffix);
  }

  /** The `.N` pattern removes exactly `"." + digits`. */
  lemma DotNumberStripped(stem: string, digits: string)
    requires |digits| >= 1 && forall i :: 0 <= i < |digits| ==> IsDigit(digits[i])
    ensures SubAtEnd(stem + "." + digits, IsDotNumber) == stem
  {
    var s := stem + "." + digits;
    assert s[|s| - 1] == digits[|digits| - 1];
    forall j | 0 <= j < |stem| ensures !IsDotNumber(s[j..]) {
      assert s[j..][|stem| - j] == '.';
    }
    assert s[|stem|..] == "." + digits;
    SubAtEndStrips(s, |stem|, IsDotNumber);
    assert s[..|stem|] == stem;
  }

  // ---------------------------------------------------------------------------
  // Readable names

  /** `w.capitalize()`: first character upper case, the rest lower case. */
  function Capitalize(w: string): (r: string)
    ensures |r| == |w|
    ensures w != [] ==> r[0] == UpperChar(w[0])
    ensures forall i :: 0 < i < |w| ==> r[i] == LowerChar(w[i])
  {
    if w == [] then [] else [UpperChar(w[0])] + Lower(w[1..])
  }

  function CapitalizeAll(parts: seq<string>): (r: seq<string>)
    ensures |r| == |parts|
    ensures forall i :: 0 <= i < |parts| ==> r[i] == Capitalize(parts[i])
  {
    seq(|parts|, i requires 0 <= i < |parts| => Capitalize(parts[i]))
  }

  /** `derive_readable_name_from_id`: `' '.join(w.capitalize() for w in id.split('_'))`. */
  function ReadableName(id: string): string {
    JoinWith(CapitalizeAll(SplitOn(id, '_')), ' ')
  }

  /** What `ReadableName` puts at position `i`: underscores become spaces, a
      letter that starts a word is upper-cased, every other one lower-cased. */
  function WordCase(id: string, i: nat): char
    requires i < |id|
  {
    if id[i] == '_' then ' '
    else if i == 0 || id[i - 1] == '_' then UpperChar(id[i])
    else LowerChar(id[i])
  }

  lemma ReadableNameUnfold(id: string)
    ensures '_' !in id ==> ReadableName(id) == Capitalize(id)
    ensures '_' in id ==>
      ReadableName(id) == Capitalize(id[..IndexOf(id, '_')]) + [' '] + ReadableName(id[IndexOf(id, '_') + 1..])
  {
    if '_' in id {
      ReadableNameCons(id);
    } else {
      assert SplitOn(id, '_') == [id];
      assert CapitalizeAll([id]) == [Capitalize(id)];
    }
  }

  lemma ReadableNameCons(id: string)
    requires '_' in id
    ensures ReadableName(id) == Capitalize(id[..IndexOf(id, '_')]) + [' '] + ReadableName(id[IndexOf(id, '_') + 1..])
  {
    var k := IndexOf(id, '_');
    var words := CapitalizeAll(SplitOn(id[k + 1..], '_'));
    ReadableNameSplit(id);
    JoinWithCons(Capitalize(id[..k]), words, ' ');
  }

  lemma ReadableNameSplit(id: string)
    requires '_' in id
    ensures var k := IndexOf(id, '_');
      ReadableName(id) == JoinWith([Capitalize(id[..k])] + CapitalizeAll(SplitOn(id[k + 1..], '_')), ' ')
  {
    var k := IndexOf(id, '_');
    var rest := SplitOn(id[k + 1..], '_');
    SplitOnCons(id, '_');
    CapitalizeAllCons(id[..k], rest);
  }

  lemma SplitOnCons(s: string, c: char)
    requires c in s
    ensures SplitOn(s, c) == [s[..IndexOf(s, c)]] + SplitOn(s[IndexOf(s, c) + 1..], c)
  {
    var k := IndexOf(s, c);
    assert SplitOn(s, c) == [s[..k]] + SplitOn(s[k + 1..], c);
  }

  lemma CapitalizeAllCons(w: string, rest: seq<string>)
    ensures CapitalizeAll([w] + rest) == [Capitalize(w)] + CapitalizeAll(rest)
  {
    var parts := [w] + rest;
    var a, b := CapitalizeAll(parts), [Capitalize(w)] + CapitalizeAll(rest);
    assert |a| == |b|;
    forall i | 0 <= i < |a| ensures a[i] == b[i] {
      if i > 0 {
        assert parts[i] == rest[i - 1];
      }
    }
  }

  lemma JoinWithCons(w: string, rest: seq<string>, sep: char)
    requires |rest| >= 1
    ensures JoinWith([w] + rest, sep) == w + [sep] + JoinWith(rest, sep)
  {
    assert ([w] + rest)[1..] == rest;
  }

  /** Position by position, the readable name is the id with `_` turned into a
      space and each `_`-separated word capitalised. */
  lemma {:induction false} ReadableNameAt(id: string)
    ensures |ReadableName(id)| == |id|
    ensures forall i :: 0 <= i < |id| ==> ReadableName(id)[i] == WordCase(id, i)
    decreases |id|
  {
    ReadableNameUnfold(id);
    if '_' in id {
      var k := IndexOf(id, '_');
      var rest := id[k + 1..];
      ReadableNameAt(rest);
      var r := ReadableName(id);
      var w := Capitalize(id[..k]);
      var tail := ReadableName(rest);
      assert r == w + [' '] + tail;
      forall i | 0 <= i < |id| ensures r[i] == WordCase(id, i) {
        if i < k {
          WordCaseInFirstWord(id, k, i);
          assert r[i] == w[i];
        } else if i == k {
          assert r[i] == ' ';
        } else {
          WordCaseAfterUnderscore(id, k, i);
          assert r[i] == tail[i - k - 1];
        }
      }
    } else {
      forall i | 0 <= i < |id| ensures ReadableName(id)[i] == WordCase(id, i) {
        WordCaseInFirstWord(id, |id|, i);
        assert id[..|id|] == id;
      }
    }
  }

  lemma WordCaseInFirstWord(id: string, k: nat, i: nat)
    requires i < k <= |id|
    requires forall j :: 0 <= j < k ==> id[j] != '_'
    ensures Capitalize(id[..k])[i] == WordCase(id, i)
  {
    assert id[..k][i] == id[i];
    assert i > 0 ==> id[..k][i - 1] == id[i - 1];
  }

  lemma WordCaseAfterUnderscore(id: string, k: nat, i: nat)
    requires k < i < |id| && id[k] == '_'
    ensures WordCase(id[k + 1..], i - k - 1) == WordCase(id, i)
  {
    var rest := id[k + 1..];
    var m := i - k - 1;
    assert rest[m] == id[i];
    assert m > 0 ==> rest[m - 1] == id[i - 1];
  }

  /** When the id holds no space, splitting the readable name on spaces gives
      exactly one capitalised word per `_`-separated part of the id. */
  lemma ReadableNameWords(id: string)
    requires ' ' !in id
    ensures SplitOn(ReadableName(id), ' ') == CapitalizeAll(SplitOn(id, '_'))
  {
    var parts := SplitOn(id, '_');
    var caps := CapitalizeAll(parts);
    JoinSplit(id, '_');
    forall i | 0 <= i < |caps| ensures ' ' !in caps[i] {
      var p := parts[i];
      assert forall j :: 0 <= j < |p| ==> p[j] != ' ' by {
        forall j | 0 <= j < |p| ensures p[j] != ' ' {
          PartIsInfix(parts, '_', i, j);
        }
      }
    }
    SplitJoin(caps, ' ');
  }

  /** Every character of a part is a character of the joined string. */
  lemma {:induction false} PartIsInfix(parts: seq<string>, sep: char, i: int, j: int)
    requires 0 <= i < |parts| && 0 <= j < |parts[i]|
    ensures parts[i][j] in JoinWith(parts, sep)
    decreases |parts|
  {
    if |parts| > 1 {
      if i == 0 {
        assert JoinWith(parts, sep)[j] == parts[0][j];
      } else {
        PartIsInfix(parts[1..], sep, i - 1, j);
        var tail := JoinWith(parts[1..], sep);
        var m :| 0 <= m < |tail| && tail[m] == parts[i][j];
        assert JoinWith(parts, sep)[|parts[0]| + 1 + m] == tail[m];
      }
    }
  }
}

=== FILE: layout_metadata.dfy ===
/** What a keyboard-layout asset contributes to its manifest entry
    (update_manifests.py, `extract_layout_metadata`, without the download
    and the JSON parsing, whose outcome is given as a `LayoutDoc`). */
module LayoutMetadata {
  import opened Options
  import opened Text

  /** The top-level "name" and "description" keys of a layout's JSON body,
      each possibly missing. */
  datatype LayoutDoc = LayoutDoc(name: Option<string>, description: Option<string>)

  /** `d.split('\n')[0]`: everything before the first newline. */
  function FirstLine(d: string): (line: string)
    ensures |line| <= |d| && line == d[..|line|]
    ensures '\n' !in line
    ensures |line| < |d| ==> d[|line|] == '\n'
  {
    if '\n' in d then d[..IndexOf(d, '\n')] else d
  }

  /** The description trimmed to its first line, with surrounding whitespace
      removed; an empty description stays empty. */
  function ShortDescription(description: string): (r: string)
    ensures description == [] ==> r == []
    ensures '\n' !in r
    ensures exists a :: StrippedAt(r, FirstLine(description), a)
  {
    if description != [] then
      var line := FirstLine(description);
      var r := Strip(line);
      StripCharacterization(line);
      assert forall c :: c in r ==> c in line;
      r
    else
      assert StrippedAt([], FirstLine(description), 0);
      description
  }

  /** The name and short description a layout asset yields; a body that could
      not be fetched or parsed yields two empty strings. */
  function LayoutFields(doc: Option<LayoutDoc>): (fields: (string, string))
    ensures doc.None? ==> fields == ("", "")
    ensures doc.Some? ==> fields.0 == doc.value.name.GetOr("")
    ensures doc.Some? ==> fields.1 == ShortDescription(doc.value.description.GetOr(""))
  {
    match doc
    case None => ("", "")
    case Some(d) =>
      var description := d.description.GetOr("");
      (d.name.GetOr(""), if description != [] then ShortDescription(description) else description)
  }

  /** The first line ends exactly at the first newline. */
  lemma FirstLineAt(d: string, k: nat)
    requires k < |d| && d[k] == '\n'
    requires forall i :: 0 <= i < k ==> d[i] != '\n'
    ensures FirstLine(d) == d[..k]
  {
  }

  /** A description whose first line is `line` padded with blanks (other than
      newlines) yields exactly `line`, whatever follows the first newline. */
  lemma ShortDescriptionOf(lead: string, line: string, trail: string, rest: string)
    requires forall i :: 0 <= i < |lead| ==> IsSpace(lead[i]) && lead[i] != '\n'
    requires forall i :: 0 <= i < |trail| ==> IsSpace(trail[i]) && trail[i] != '\n'
    requires line != [] && !IsSpace(line[0]) && !IsSpace(line[|line| - 1])
    requires '\n' !in line
    ensures ShortDescription(lead + line + trail + "\n" + rest) == line
  {
    var first := lead + line + trail;
    var d := first + "\n" + rest;
    forall i | 0 <= i < |first| ensures d[i] != '\n' {
      if i < |lead| { assert d[i] == lead[i]; }
      else if i < |lead| + |line| { assert d[i] == line[i - |lead|]; }
      else { assert d[i] == trail[i - |lead| - |line|]; }
    }
    assert d[|first|] == '\n';
    FirstLineAt(d, |first|);
    assert d[..|first|] == first;
    assert StrippedAt(line, first, |lead|) by {
      assert first[|lead|..|lead| + |line|] == line;
      forall i | 0 <= i < |lead| ensures IsSpace(first[i]) { assert first[i] == lead[i]; }
      forall i | |lead| + |line| <= i < |first| ensures IsSpace(first[i]) {
        assert first[i] == trail[i - |lead| - |line|];
      }
    }
    var a :| StrippedAt(ShortDescription(d), first, a);
    StrippedAtUnique(ShortDescription(d), a, line, |lead|, first);
  }
}

=== FILE: manifests.dfy ===
/** Manifest entries and the lookups over a manifest's item list
    (update_manifests.py). */
module Manifests {
  import opened Options

  /** The `schemaVersion` every written manifest carries. */
  const SchemaVersion: int := 1

  /** One manifest entry. The id is always present; every other key may be
      missing from an entry read back from an older manifest. */
  datatype Item = Item(
    id: string,
    filename: Option<string>,
    url: Option<string>,
    bytes: Option<int>,
    sha256: Option<string>,
    updatedAt: Option<string>,
    name: Option<string>,
    shortDescription: Option<string>,
    languageTag: Option<string>)

  datatype Manifest = Manifest(
    schemaVersion: int,
    generatedAt: string,
    releaseTag: string,
    items: seq<Item>)

  /** Some entry of `items` has id `id`. */
  predicate HasId(items: seq<Item>, id: string) {
    exists i | 0 <= i < |items| :: items[i].id == id
  }

  /** `items[i]` is the first entry with id `k`. */
  predicate FirstWithId(items: seq<Item>, i: int, k: string) {
    0 <= i < |items| && items[i].id == k
    && forall j :: 0 <= j < i ==> items[j].id != k
  }

  /** `items[i]` is the first entry with filename `f`. */
  predicate FirstWithFilename(items: seq<Item>, i: int, f: string) {
    0 <= i < |items| && items[i].filename == Some(f)
    && forall j :: 0 <= j < i ==> items[j].filename != Some(f)
  }

  /** `find_existing_item_by_id`: the first entry with id `id`. */
  method FindExistingItemById(items: seq<Item>, id: string) returns (found: Option<Item>)
    ensures found.None? <==> !HasId(items, id)
    ensures found.Some? ==> found.value.id == id
    ensures found.Some? ==> exists i :: FirstWithId(items, i, id) && items[i] == found.value
  {
    for i := 0 to |items|
      invariant forall j :: 0 <= j < i ==> items[j].id != id
    {
      if items[i].id == id {
        assert FirstWithId(items, i, id);
        return Some(items[i]);
      }
    }
    return None;
  }

  /** `find_existing_item_by_filename`: the first entry whose filename is
      `filename`; an entry without a filename never matches. */
  method FindExistingItemByFilename(items: seq<Item>, filename: string) returns (found: Option<Item>)
    ensures found.None? <==> forall i :: 0 <= i < |items| ==> items[i].filename != Some(filename)
    ensures found.Some? ==> found.value.filename == Some(filename)
    ensures found.Some? ==> exists i :: FirstWithFilename(items, i, filename) && items[i] == found.value
  {
    for i := 0 to |items|
      invariant forall j :: 0 <= j < i ==> items[j].filename != Some(filename)
    {
      if items[i].filename == Some(filename) {
        assert FirstWithFilename(items, i, filename);
        return Some(items[i]);
      }
    }
    return None;
  }

  /** Every entry is filed under its own id. */
  predicate WellKeyed(m: map<string, Item>) {
    forall k :: k in m ==> m[k].id == k
  }

  /** `items[i]` is the last entry with id `k`. */
  predicate LastWithId(items: seq<Item>, i: int, k: string) {
    0 <= i < |items| && items[i].id == k
    && forall j :: i < j < |items| ==> items[j].id != k
  }

  /** `items[i]` is the last entry with filename `f`. */
  predicate LastWithFilename(items: seq<Item>, i: int, f: string) {
    0 <= i < |items| && items[i].filename == Some(f)
    && forall j :: i < j < |items| ==> items[j].filename != Some(f)
  }

  /** The entries keyed by id; of several entries with one id the last wins. */
  function IndexById(items: seq<Item>): (m: map<string, Item>)
    ensures WellKeyed(m)
    ensures forall k :: k in m <==> HasId(items, k)
  {
    if items == [] then map[]
    else
      var last := items[|items| - 1];
      var m := IndexById(items[..|items| - 1]);
      m[last.id := last]
  }

  /** Each id maps to the last entry carrying it. */
  lemma {:induction false} IndexByIdLastWins(items: seq<Item>, k: string)
    requires k in IndexById(items)
    ensures exists i :: LastWithId(items, i, k) && items[i] == IndexById(items)[k]
  {
    var n := |items| - 1;
    var init := items[..n];
    IndexByIdSnoc(items);
    if items[n].id == k {
      assert LastWithId(items, n, k);
    } else {
      IndexByIdLastWins(init, k);
      var i :| LastWithId(init, i, k) && init[i] == IndexById(init)[k];
      LastWithIdSnoc(items, i, k);
    }
  }

  lemma IndexByIdSnoc(items: seq<Item>)
    requires items != []
    ensures IndexById(items) == IndexById(items[..|items| - 1])[items[|items| - 1].id := items[|items| - 1]]
  {
  }

  lemma LastWithIdSnoc(items: seq<Item>, i: int, k: string)
    requires items != [] && items[|items| - 1].id != k
    requires LastWithId(items[..|items| - 1], i, k)
    ensures LastWithId(items, i, k) && items[i] == items[..|items| - 1][i]
  {
  }

  /** The id of every entry that has a filename, keyed by that filename; of
      several entries with one filename the last wins. */
  function FilenameIndex(items: seq<Item>): (m: map<string, string>)
    ensures forall f :: f in m <==> exists i :: 0 <= i < |items| && items[i].filename == Some(f)
  {
    if items == [] then map[]
    else
      var last := items[|items| - 1];
      var m := FilenameIndex(items[..|items| - 1]);
      if last.filename.Some? then m[last.filename.value := last.id] else m
  }

  /** Each filename maps to the id of the last entry carrying it. */
  lemma {:induction false} FilenameIndexLastWins(items: seq<Item>, f: string)
    requires f in FilenameIndex(items)
    ensures exists i :: LastWithFilename(items, i, f) && items[i].id == FilenameIndex(items)[f]
  {
    var n := |items| - 1;
    var init := items[..n];
    if items[n].filename == Some(f) {
      assert LastWithFilename(items, n, f);
    } else {
      FilenameIndexSnoc(items, f);
      FilenameIndexLastWins(init, f);
      var i :| LastWithFilename(init, i, f) && init[i].id == FilenameIndex(init)[f];
      LastWithFilenameSnoc(items, i, f);
    }
  }

  lemma FilenameIndexSnoc(items: seq<Item>, f: string)
    requires items != [] && items[|items| - 1].filename != Some(f)
    requires f in FilenameIndex(items)
    ensures f in FilenameIndex(items[..|items| - 1])
    ensures FilenameIndex(items)[f] == FilenameIndex(items[..|items| - 1])[f]
  {
  }

  lemma LastWithFilenameSnoc(items: seq<Item>, i: int, f: string)
    requires items != [] && items[|items| - 1].filename != Some(f)
    requires LastWithFilename(items[..|items| - 1], i, f)
    ensures LastWithFilename(items, i, f) && items[i] == items[..|items| - 1][i]
  {
  }

  /** The loop that fills `id_by_filename` from the prior entries. */
  method BuildFilenameIndex(items: seq<Item>) returns (m: map<string, string>)
    ensures m == FilenameIndex(items)
  {
    m := map[];
    for i := 0 to |items|
      invariant m == FilenameIndex(items[..i])
    {
      assert items[..i + 1][..i] == items[..i];
      if items[i].filename.Some? {
        m := m[items[i].filename.value := items[i].id];
      }
    }
    assert items[..|items|] == items;
  }
}

=== FILE: merge.dfy ===
/** The merge at the heart of `update_manifest` (update_manifests.py), as a
    fold over the release assets of a map from id to entry and of the set of
    ids this batch has taken. The method that runs it step by step is
    `ManifestUpdate.MergeAssets`, which is proved to compute this fold. */
module ManifestMerge {
  import opened Options
  import opened Text
  import opened Identifiers
  import opened LayoutMetadata
  import opened Manifests
  import opened BatchIds

  /** The `asset_type` argument: "dictionary", "layout", or any other string,
      for which no UI field is touched. */
  datatype Kind = Dictionary | Layout | Unlisted

  /** One entry of the dictionary metadata table, each key possibly missing. */
  datatype UiMetadata = UiMetadata(
    name: Option<string>,
    shortDescription: Option<string>,
    languageTag: Option<string>)

  /** A release asset, with what the network would have told about it passed
      in: the SHA-256 of its body and, for a layout, its parsed JSON (`None`
      when the download or the parse failed). */
  datatype Asset = Asset(
    name: string,
    url: string,
    size: int,
    sha256: string,
    layoutDoc: Option<LayoutDoc>)

  /** What stays fixed through one run: the entries of the manifest read from
      disk, the asset type, the extension, the dictionary metadata table (empty
      when there is none) and the timestamp written as `updatedAt`. */
  datatype Context = Context(
    prior: seq<Item>,
    kind: Kind,
    extension: string,
    metadata: map<string, UiMetadata>,
    now: string)

  /** `updated_items_dict` and `processed_ids`. */
  datatype MergeState = MergeState(items: map<string, Item>, processed: set<string>)

  /** Every entry is filed under its own id, and every id the batch took names
      an entry. */
  predicate Consistent(st: MergeState) {
    WellKeyed(st.items) && st.processed <= st.items.Keys
  }

  /** The state before the first asset: the prior entries keyed by id. */
  function Initial(ctx: Context): (st: MergeState)
    ensures Consistent(st) && st.processed == {}
    ensures forall k :: k in st.items <==> HasId(ctx.prior, k)
    ensures forall i :: 0 <= i < |ctx.prior| ==> ctx.prior[i].id in st.items
  {
    MergeState(IndexById(ctx.prior), {})
  }

  /** The stable id for an asset, before the batch suffix: the derived id when
      a prior entry has it; otherwise the non-empty id of the prior entry with
      the same filename; otherwise the derived id. */
  function ResolveId(ctx: Context, filename: string): (id: string)
    ensures HasId(ctx.prior, DeriveId(filename, ctx.extension)) ==> id == DeriveId(filename, ctx.extension)
    ensures id != DeriveId(filename, ctx.extension) ==>
      id != [] && exists i :: LastWithFilename(ctx.prior, i, filename) && ctx.prior[i].id == id
    ensures (&& !HasId(ctx.prior, DeriveId(filename, ctx.extension))
             && filename in FilenameIndex(ctx.prior)
             && FilenameIndex(ctx.prior)[filename] != [])
            ==> id == FilenameIndex(ctx.prior)[filename]
    ensures (&& !HasId(ctx.prior, DeriveId(filename, ctx.extension))
             && (filename !in FilenameIndex(ctx.prior) || FilenameIndex(ctx.prior)[filename] == []))
            ==> id == DeriveId(filename, ctx.extension)
  {
    var derived := DeriveId(filename, ctx.extension);
    if HasId(ctx.prior, derived) then derived
    else
      var byFilename := FilenameIndex(ctx.prior);
      if filename in byFilename && byFilename[filename] != [] then
        FilenameIndexLastWins(ctx.prior, filename);
        byFilename[filename]
      else derived
  }

  /** The id an asset named `filename` is filed under, given the state so far. */
  function AssignId(ctx: Context, st: MergeState, filename: string): (id: string)
    ensures id !in st.processed
    ensures id in st.items ==> id == ResolveId(ctx, filename)
  {
    var o := ResolveId(ctx, filename);
    FreeIdFresh(o, st.processed, st.items.Keys);
    FreeId(o, st.processed, st.items.Keys)
  }

  /** The technical fields of an existing entry take the asset's values. */
  function Touch(item: Item, asset: Asset, now: string): (r: Item)
    ensures r == item.(filename := Some(asset.name), url := Some(asset.url), bytes := Some(asset.size),
                       sha256 := Some(asset.sha256), updatedAt := Some(now))
  {
    var r := item.(url := Some(asset.url), bytes := Some(asset.size), sha256 := Some(asset.sha256),
                   updatedAt := Some(now));
    if r.filename.None? || r.filename.value != asset.name then r.(filename := Some(asset.name)) else r
  }

  /** A fresh entry for an asset: technical fields only. They are the ones an
      update would write, and no UI field is set yet. */
  function NewItem(id: string, asset: Asset, now: string): (r: Item)
    ensures r.id == id && Touch(r, asset, now) == r
    ensures r.name.None? && r.shortDescription.None? && r.languageTag.None?
  {
    Item(id, Some(asset.name), Some(asset.url), Some(asset.size), Some(asset.sha256), Some(now),
         None, None, None)
  }

  /** Python's `not item.get(key)` for a string field. */
  predicate Blank(field: Option<string>) {
    field.None? || field.value == []
  }

  /** The UI fields after an asset of the run's kind was filed as `id`. */
  function FillUi(ctx: Context, id: string, item: Item, asset: Asset): (r: Item)
    ensures r.(name := item.name, shortDescription := item.shortDescription,
               languageTag := item.languageTag) == item
    ensures ctx.kind == Unlisted ==> r == item
    ensures ctx.kind == Layout ==>
      && r.name == Some(LayoutFields(asset.layoutDoc).0)
      && r.shortDescription == Some(LayoutFields(asset.layoutDoc).1)
      && (item.languageTag.Some? ==> r.languageTag == item.languageTag)
      && (item.languageTag.None? ==> r.languageTag == Some(""))
    ensures ctx.kind == Dictionary && id in ctx.metadata ==>
      && r.name == Some(ctx.metadata[id].name.GetOr(""))
      && r.shortDescription == Some(ctx.metadata[id].shortDescription.GetOr(""))
      && r.languageTag == Some(ctx.metadata[id].languageTag.GetOr(""))
    ensures ctx.kind == Dictionary && id !in ctx.metadata ==>
      && (!Blank(item.name) ==> r.name == item.name)
      && (Blank(item.name) ==> r.name == Some(ReadableName(id)))
      && (!Blank(item.shortDescription) ==> r.shortDescription == item.shortDescription)
      && (Blank(item.shortDescription) ==> r.shortDescription == Some(""))
      && (!Blank(item.languageTag) ==> r.languageTag == item.languageTag)
      && (Blank(item.languageTag) ==> r.languageTag == Some(""))
  {
    match ctx.kind
    case Layout =>
      var (name, description) := LayoutFields(asset.layoutDoc);
      var r := item.(name := Some(name), shortDescription := Some(description));
      if r.languageTag.None? then r.(languageTag := Some("")) else r
    case Dictionary =>
      if id in ctx.metadata then
        var m := ctx.metadata[id];
        item.(name := Some(m.name.GetOr("")), shortDescription := Some(m.shortDescription.GetOr("")),
              languageTag := Some(m.languageTag.GetOr("")))
      else
        var r1 := if Blank(item.name) then item.(name := Some(ReadableName(id))) else item;
        var r2 := if Blank(r1.shortDescription) then r1.(shortDescription := Some("")) else r1;
        if Blank(r2.languageTag) then r2.(languageTag := Some("")) else r2
    case Unlisted => item
  }

  /** One turn of the loop over the assets. */
  function ProcessAsset(ctx: Context, st: MergeState, asset: Asset): (r: MergeState)
    ensures !EndsWith(asset.name, ctx.extension) ==> r == st
    ensures EndsWith(asset.name, ctx.extension) ==>
      var id := AssignId(ctx, st, asset.name);
      && r.processed == st.processed + {id}
      && r.items.Keys == st.items.Keys + {id}
      && (forall k :: k in st.items && k != id ==> r.items[k] == st.items[k])
    ensures Consistent(st) ==> Consistent(r)
  {
    if !EndsWith(asset.name, ctx.extension) then st
    else
      var id := AssignId(ctx, st, asset.name);
      var base := if id in st.items then Touch(st.items[id], asset, ctx.now) else NewItem(id, asset, ctx.now);
      MergeState(st.items[id := FillUi(ctx, id, base, asset)], st.processed + {id})
  }

  /** The assets taken in order. */
  function Fold(ctx: Context, st: MergeState, assets: seq<Asset>): MergeState
  {
    if assets == [] then st
    else ProcessAsset(ctx, Fold(ctx, st, assets[..|assets| - 1]), assets[|assets| - 1])
  }

  /** The state after the whole batch. */
  function Merge(ctx: Context, assets: seq<Asset>): MergeState {
    Fold(ctx, Initial(ctx), assets)
  }

  /** The ids the batch's assets are filed under, in order; assets without the
      extension get none. */
  function AssignedIds(ctx: Context, st: MergeState, assets: seq<Asset>): (ids: seq<string>)
    ensures |ids| <= |assets|
  {
    if assets == [] then []
    else
      var init := assets[..|assets| - 1];
      var last := assets[|assets| - 1];
      AssignedIds(ctx, st, init)
        + (if EndsWith(last.name, ctx.extension) then [AssignId(ctx, Fold(ctx, st, init), last.name)] else [])
  }

  /** The assets carrying the extension. */
  function Relevant(extension: string, assets: seq<Asset>): (r: seq<Asset>)
    ensures forall i :: 0 <= i < |r| ==> EndsWith(r[i].name, extension)
    ensures forall a :: a in r ==> a in assets
    ensures forall i :: 0 <= i < |assets| && EndsWith(assets[i].name, extension) ==> assets[i] in r
  {
    if assets == [] then []
    else
      var last := assets[|assets| - 1];
      Relevant(extension, assets[..|assets| - 1]) + (if EndsWith(last.name, extension) then [last] else [])
  }
}

=== FILE: merge_properties.dfy ===
/** What the merge fold guarantees over a whole batch of assets. */
module MergeProperties {
  import opened Options
  import opened Text
  import opened Identifiers
  import opened Manifests
  import opened ManifestMerge

  /** The elements of a sequence of ids. */
  function Elems(ids: seq<string>): (s: set<string>)
    ensures forall i :: 0 <= i < |ids| ==> ids[i] in s
    ensures forall x :: x in s ==> x in ids
  {
    set x | x in ids
  }

  /** The batch keeps the state consistent and deletes no entry. */
  lemma {:induction false} FoldConsistent(ctx: Context, st: MergeState, assets: seq<Asset>)
    requires Consistent(st)
    ensures Consistent(Fold(ctx, st, assets))
    ensures st.items.Keys <= Fold(ctx, st, assets).items.Keys
  {
    if assets != [] {
      FoldConsistent(ctx, st, assets[..|assets| - 1]);
    }
  }

  /** One step of the fold and of the ids it assigns. */
  lemma FoldStep(ctx: Context, st: MergeState, assets: seq<Asset>)
    requires assets != []
    ensures var init := assets[..|assets| - 1];
      var last := assets[|assets| - 1];
      && Fold(ctx, st, assets) == ProcessAsset(ctx, Fold(ctx, st, init), last)
      && AssignedIds(ctx, st, assets) == AssignedIds(ctx, st, init)
           + (if EndsWith(last.name, ctx.extension) then [AssignId(ctx, Fold(ctx, st, init), last.name)] else [])
  {
  }

  lemma ElemsSnoc(ids: seq<string>, x: string)
    ensures Elems(ids + [x]) == Elems(ids) + {x}
  {
  }

  /** After the batch, the map holds exactly the entries it started with plus
      the ids assigned, and the batch has taken exactly the ids assigned. */
  lemma {:induction false} FoldKeys(ctx: Context, st: MergeState, assets: seq<Asset>)
    ensures Fold(ctx, st, assets).items.Keys == st.items.Keys + Elems(AssignedIds(ctx, st, assets))
    ensures Fold(ctx, st, assets).processed == st.processed + Elems(AssignedIds(ctx, st, assets))
  {
    if assets != [] {
      var init := assets[..|assets| - 1];
      var last := assets[|assets| - 1];
      FoldKeys(ctx, st, init);
      FoldStep(ctx, st, assets);
      var before := Fold(ctx, st, init);
      var after := Fold(ctx, st, assets);
      var ids := AssignedIds(ctx, st, init);
      if EndsWith(last.name, ctx.extension) {
        var id := AssignId(ctx, before, last.name);
        assert after.items.Keys == before.items.Keys + {id} && after.processed == before.processed + {id};
        ElemsSnoc(ids, id);
        assert Elems(AssignedIds(ctx, st, assets)) == Elems(ids) + {id};
      } else {
        assert after == before;
        assert AssignedIds(ctx, st, assets) == ids;
      }
    }
  }

  /** The ids assigned within one batch are pairwise distinct, and none was
      taken before the batch began. */
  lemma {:induction false} AssignedIdsDistinct(ctx: Context, st: MergeState, assets: seq<Asset>)
    ensures var ids := AssignedIds(ctx, st, assets);
      forall i, j :: 0 <= i < j < |ids| ==> ids[i] != ids[j]
    ensures forall id :: id in AssignedIds(ctx, st, assets) ==> id !in st.processed
  {
    if assets != [] {
      var init := assets[..|assets| - 1];
      var last := assets[|assets| - 1];
      AssignedIdsDistinct(ctx, st, init);
      if EndsWith(last.name, ctx.extension) {
        FoldKeys(ctx, st, init);
        var before := AssignedIds(ctx, st, init);
        var id := AssignId(ctx, Fold(ctx, st, init), last.name);
        assert id !in before;
        assert AssignedIds(ctx, st, assets) == before + [id];
      } else {
        assert AssignedIds(ctx, st, assets) == AssignedIds(ctx, st, init);
      }
    }
  }

  /** One id per asset that carries the extension. */
  lemma {:induction false} AssignedIdsCount(ctx: Context, st: MergeState, assets: seq<Asset>)
    ensures |AssignedIds(ctx, st, assets)| == |Relevant(ctx.extension, assets)|
  {
    if assets != [] {
      AssignedIdsCount(ctx, st, assets[..|assets| - 1]);
    }
  }

  /** Assets without the extension have no effect at all: the batch gives the
      same state as the batch with them removed. */
  lemma {:induction false} FoldIgnoresForeign(ctx: Context, st: MergeState, assets: seq<Asset>)
    ensures Fold(ctx, st, assets) == Fold(ctx, st, Relevant(ctx.extension, assets))
  {
    if assets != [] {
      var init := assets[..|assets| - 1];
      var last := assets[|assets| - 1];
      FoldIgnoresForeign(ctx, st, init);
      var r := Relevant(ctx.extension, init);
      if EndsWith(last.name, ctx.extension) {
        assert Relevant(ctx.extension, assets) == r + [last];
        assert (r + [last])[..|r|] == r;
      } else {
        assert Relevant(ctx.extension, assets) == r;
      }
    }
  }

  /** An entry whose id no asset of the batch is filed under comes out as it
      went in. */
  lemma {:induction false} FoldUntouched(ctx: Context, st: MergeState, assets: seq<Asset>, k: string)
    requires k in st.items && k !in AssignedIds(ctx, st, assets)
    ensures k in Fold(ctx, st, assets).items && Fold(ctx, st, assets).items[k] == st.items[k]
  {
    if assets != [] {
      var init := assets[..|assets| - 1];
      var last := assets[|assets| - 1];
      assert k !in AssignedIds(ctx, st, init) by {
        assert AssignedIds(ctx, st, init) <= AssignedIds(ctx, st, assets);
      }
      FoldUntouched(ctx, st, init, k);
    }
  }

  /** The entry an asset is filed under carries the asset's filename, URL,
      size and hash and the run's timestamp, and keeps its id. */
  lemma ProcessAssetEntry(ctx: Context, st: MergeState, asset: Asset)
    requires Consistent(st) && EndsWith(asset.name, ctx.extension)
    ensures var id := AssignId(ctx, st, asset.name);
      var e := ProcessAsset(ctx, st, asset).items[id];
      && e.id == id
      && e.filename == Some(asset.name)
      && e.url == Some(asset.url)
      && e.bytes == Some(asset.size)
      && e.sha256 == Some(asset.sha256)
      && e.updatedAt == Some(ctx.now)
  {
  }

  /** On an update of a dictionary that the metadata table does not list, a
      non-empty name, short description or language tag survives. */
  lemma ProcessAssetKeepsCuratedUi(ctx: Context, st: MergeState, asset: Asset)
    requires ctx.kind == Dictionary && EndsWith(asset.name, ctx.extension)
    requires AssignId(ctx, st, asset.name) in st.items && AssignId(ctx, st, asset.name) !in ctx.metadata
    ensures var id := AssignId(ctx, st, asset.name);
      var old_ := st.items[id];
      var e := ProcessAsset(ctx, st, asset).items[id];
      && (!Blank(old_.name) ==> e.name == old_.name)
      && (!Blank(old_.shortDescription) ==> e.shortDescription == old_.shortDescription)
      && (!Blank(old_.languageTag) ==> e.languageTag == old_.languageTag)
  {
  }

  /** Once the batch has taken an asset's stable id, the asset is filed under
      an id no entry has yet, so the map grows by one entry. Two assets that
      resolve to the same id therefore give `o` and the first free `o_N`. A
      second run over the same assets can then file the second one under a
      further id, such as `o_2` when `o_1` is taken: this happens when it
      resolves to `o` again, as `a_1.dict` does, because it derives `a`. */
  lemma TakenStableIdAddsEntry(ctx: Context, st: MergeState, asset: Asset)
    requires EndsWith(asset.name, ctx.extension)
    requires ResolveId(ctx, asset.name) in st.processed
    ensures AssignId(ctx, st, asset.name) !in st.items
    ensures |ProcessAsset(ctx, st, asset).items.Keys| == |st.items.Keys| + 1
  {
    var id := AssignId(ctx, st, asset.name);
    assert ProcessAsset(ctx, st, asset).items.Keys == st.items.Keys + {id};
  }

  /** Every prior entry's id is still in the map after the batch, and the map
      stays well keyed. */
  lemma MergeKeepsPriorIds(ctx: Context, assets: seq<Asset>)
    ensures WellKeyed(Merge(ctx, assets).items)
    ensures forall i :: 0 <= i < |ctx.prior| ==> ctx.prior[i].id in Merge(ctx, assets).items
  {
    FoldConsistent(ctx, Initial(ctx), assets);
  }

  /** Prior ids are pairwise distinct. */
  predicate DistinctIds(items: seq<Item>) {
    forall i, j :: 0 <= i < j < |items| ==> items[i].id != items[j].id
  }

  /** With distinct prior ids, a prior entry whose id the batch does not take
      comes out exactly as it was read. */
  lemma MergeUnassignedPrior(ctx: Context, assets: seq<Asset>, i: int)
    requires DistinctIds(ctx.prior) && 0 <= i < |ctx.prior|
    requires ctx.prior[i].id !in AssignedIds(ctx, Initial(ctx), assets)
    ensures ctx.prior[i].id in Merge(ctx, assets).items
    ensures Merge(ctx, assets).items[ctx.prior[i].id] == ctx.prior[i]
  {
    var k := ctx.prior[i].id;
    IndexByIdLastWins(ctx.prior, k);
    FoldUntouched(ctx, Initial(ctx), assets, k);
  }
}

=== FILE: options.dfy ===
/** The optional value used for JSON keys that may be missing from a record. */
module Options {

  datatype Option<+T> = None | Some(value: T) {

    /** `d.get(key, default)`: the value when present, otherwise the default. */
    function GetOr(default: T): (r: T)
      ensures Some? ==> r == value
      ensures None? ==> r == default
    {
      match this
      case Some(v) => v
      case None => default
    }
  }
}

=== FILE: sorting.dfy ===
/** The final ordering of `update_manifest` (update_manifests.py): the
    entries of the map, listed by ascending id. */
module Sorting {
  import opened Text
  import opened Manifests

  /** Ids strictly ascending in Python's string order. */
  predicate SortedById(s: seq<Item>) {
    forall i, j :: 0 <= i < j < |s| ==> LexLess(s[i].id, s[j].id)
  }

  /** `s` lists the entries of `m`: each element is the entry filed under its
      id, and every key has an element. */
  predicate ListsMap(s: seq<Item>, m: map<string, Item>) {
    && (forall i :: 0 <= i < |s| ==> s[i].id in m && m[s[i].id] == s[i])
    && (forall k :: k in m ==> exists i :: 0 <= i < |s| && s[i].id == k)
  }

  /** In a sorted listing no id occurs twice. */
  lemma SortedDistinct(s: seq<Item>, i: int, j: int)
    requires SortedById(s) && 0 <= i < |s| && 0 <= j < |s| && i != j
    ensures s[i].id != s[j].id
  {
    if i < j {
      LexLessIrreflexive(s[i].id);
    } else {
      LexLessIrreflexive(s[j].id);
    }
  }

  /** `x` put into its place in a sorted listing. */
  function Insert(s: seq<Item>, x: Item): (r: seq<Item>)
    requires SortedById(s)
    requires forall i :: 0 <= i < |s| ==> s[i].id != x.id
    ensures SortedById(r) && |r| == |s| + 1
    ensures forall y :: y in r <==> y in s || y == x
  {
    if s == [] then [x]
    else if LexLess(x.id, s[0].id) then
      forall j | 0 < j < |s| ensures LexLess(x.id, s[j].id) {
        LexLessTransitive(x.id, s[0].id, s[j].id);
      }
      [x] + s
    else
      LexLessTotal(x.id, s[0].id);
      var tail := Insert(s[1..], x);
      assert forall j :: 0 <= j < |tail| ==> LexLess(s[0].id, tail[j].id) by {
        forall j | 0 <= j < |tail| ensures LexLess(s[0].id, tail[j].id) {
          assert tail[j] in tail;
          if tail[j] != x {
            var k :| 0 <= k < |s[1..]| && s[1..][k] == tail[j];
            assert s[k + 1] == tail[j];
          }
        }
      }
      [s[0]] + tail
  }

  /** `list(d.values())` followed by `sort(key=id)`. */
  method SortById(m: map<string, Item>) returns (s: seq<Item>)
    requires WellKeyed(m)
    ensures SortedById(s) && ListsMap(s, m)
  {
    s := [];
    var rest := m.Keys;
    while rest != {}
      invariant rest <= m.Keys
      invariant SortedById(s)
      invariant forall i :: 0 <= i < |s| ==> s[i].id in m && s[i].id !in rest && m[s[i].id] == s[i]
      invariant forall k :: k in m && k !in rest ==> exists i :: 0 <= i < |s| && s[i].id == k
      decreases |rest|
    {
      var k :| k in rest;
      var before := s;
      s := Insert(s, m[k]);
      rest := rest - {k};
      forall i | 0 <= i < |s| ensures s[i].id in m && s[i].id !in rest && m[s[i].id] == s[i] {
        assert s[i] in s;
        if s[i] != m[k] {
          var j :| 0 <= j < |before| && before[j] == s[i];
        }
      }
      forall k' | k' in m && k' !in rest ensures exists i :: 0 <= i < |s| && s[i].id == k' {
        if k' == k {
          assert m[k] in s;
        } else {
          var i :| 0 <= i < |before| && before[i].id == k';
          assert before[i] in s;
        }
      }
    }
  }

  /** Two sorted listings with the same elements are the same listing. */
  lemma {:induction false} SortedUnique(s1: seq<Item>, s2: seq<Item>)
    requires SortedById(s1) && SortedById(s2)
    requires forall x :: x in s1 <==> x in s2
    ensures s1 == s2
    decreases |s1|
  {
    assert s1 != [] ==> s1[0] in s1;
    assert s2 != [] ==> s2[0] in s2;
    if s1 != [] && s2 != [] {
      if s1[0] != s2[0] {
        var i :| 0 <= i < |s2| && s2[i] == s1[0];
        var j :| 0 <= j < |s1| && s1[j] == s2[0];
        LexLessTransitive(s1[0].id, s2[0].id, s1[0].id);
        LexLessIrreflexive(s1[0].id);
        assert false;
      }
      forall x ensures x in s1[1..] <==> x in s2[1..] {
        LexLessIrreflexive(s1[0].id);
        if x in s1[1..] {
          var j :| 0 <= j < |s1[1..]| && s1[1..][j] == x;
          assert s1[j + 1] == x && x in s2;
          var i :| 0 <= i < |s2| && s2[i] == x;
          assert s2[1..][i - 1] == x;
        }
        if x in s2[1..] {
          var j :| 0 <= j < |s2[1..]| && s2[1..][j] == x;
          assert s2[j + 1] == x && x in s1;
          var i :| 0 <= i < |s1| && s1[i] == x;
          assert s1[1..][i - 1] == x;
        }
      }
      SortedUnique(s1[1..], s2[1..]);
    }
  }

  /** The order of the output is forced: any sorted listing of the map is the
      one `SortById` returns. */
  lemma SortedListingUnique(s1: seq<Item>, s2: seq<Item>, m: map<string, Item>)
    requires SortedById(s1) && ListsMap(s1, m)
    requires SortedById(s2) && ListsMap(s2, m)
    ensures s1 == s2
  {
    forall x ensures x in s1 <==> x in s2 {
      if x in s1 {
        var i :| 0 <= i < |s2| && s2[i].id == x.id;
      }
      if x in s2 {
        var i :| 0 <= i < |s1| && s1[i].id == x.id;
      }
    }
    SortedUnique(s1, s2);
  }
}

=== FILE: text.dfy ===
/** The parts of Python's `str` that the manifest updater uses, on `seq<char>`.
    Case mapping covers ASCII letters only; whitespace is Python's full
    `str.isspace` set. */
module Text {

  predicate IsDigit(c: char) { '0' <= c <= '9' }

  predicate IsAsciiUpper(c: char) { 'A' <= c <= 'Z' }

  predicate IsAsciiLower(c: char) { 'a' <= c <= 'z' }

  /** `c.lower()` on one character. */
  function LowerChar(c: char): (r: char)
    ensures !IsAsciiUpper(r)
    ensures IsAsciiUpper(c) ==> IsAsciiLower(r) && r as int == c as int + 32
    ensures !IsAsciiUpper(c) ==> r == c
  {
    if IsAsciiUpper(c) then (c as int + 32) as char else c
  }

  /** `c.upper()` on one character. */
  function UpperChar(c: char): (r: char)
    ensures !IsAsciiLower(r)
    ensures IsAsciiLower(c) ==> IsAsciiUpper(r) && r as int == c as int - 32
    ensures !IsAsciiLower(c) ==> r == c
  {
    if IsAsciiLower(c) then (c as int - 32) as char else c
  }

  /** `s.lower()` */
  function Lower(s: string): (r: string)
    ensures |r| == |s|
    ensures forall i :: 0 <= i < |s| ==> r[i] == LowerChar(s[i])
  {
    seq(|s|, i requires 0 <= i < |s| => LowerChar(s[i]))
  }

  /** `s.replace(from, to)` for single characters. */
  function ReplaceChar(s: string, from: char, to: char): (r: string)
    ensures |r| == |s|
    ensures forall i :: 0 <= i < |s| ==> r[i] == (if s[i] == from then to else s[i])
  {
    seq(|s|, i requires 0 <= i < |s| => if s[i] == from then to else s[i])
  }

  /** `s.endswith(suffix)` */
  predicate EndsWith(s: string, suffix: string) {
    |suffix| <= |s| && s[|s| - |suffix|..] == suffix
  }

  predicate OccursAt(s: string, p: string, i: int) {
    0 <= i && i + |p| <= |s| && s[i..i + |p|] == p
  }

  ghost predicate Occurs(s: string, p: string) {
    exists i :: OccursAt(s, p, i)
  }

  /** `s.replace(p, '')`: deletes the non-overlapping occurrences of `p` found
      scanning left to right. Replacing the empty string leaves `s` as it is. */
  function RemoveAll(s: string, p: string): (r: string)
    ensures |r| <= |s|
    decreases |s|
  {
    if p == [] || |s| < |p| then s
    else if s[..|p|] == p then RemoveAll(s[|p|..], p)
    else [s[0]] + RemoveAll(s[1..], p)
  }

  /** No proper prefix of `p` is also a suffix of it, so two occurrences of
      `p` can never overlap. */
  predicate Borderless(p: string) {
    forall k :: 0 < k < |p| ==> p[..k] != p[|p| - k..]
  }

  lemma FirstCharOnceIsBorderless(p: string)
    requires |p| > 0
    requires forall i :: 0 < i < |p| ==> p[i] != p[0]
    ensures Borderless(p)
  {
    forall k | 0 < k < |p| ensures p[..k] != p[|p| - k..] {
      assert p[..k][0] == p[0];
      assert p[|p| - k..][0] == p[|p| - k];
    }
  }

  /** A string in which `p` does not occur comes back unchanged. */
  lemma {:induction false} RemoveAllAbsent(s: string, p: string)
    requires p != []
    requires !Occurs(s, p)
    ensures RemoveAll(s, p) == s
    decreases |s|
  {
    if |s| >= |p| {
      assert !OccursAt(s, p, 0);
      forall i | 0 <= i ensures !OccursAt(s[1..], p, i) {
        assert !OccursAt(s, p, i + 1);
        if i + |p| <= |s[1..]| {
          assert s[1..][i..i + |p|] == s[i + 1..i + 1 + |p|];
        }
      }
      RemoveAllAbsent(s[1..], p);
    }
  }

  /** For a border-free `p` (such as ".dict" or ".json") an occurrence at the
      very end is always one of the occurrences removed, whatever precedes it. */
  lemma {:induction false} RemoveAllTrailing(x: string, p: string)
    requires p != [] && Borderless(p)
    ensures RemoveAll(x + p, p) == RemoveAll(x, p)
    decreases |x|
  {
    var s := x + p;
    if x == [] {
      assert s == p && s[..|p|] == p && s[|p|..] == [];
    } else if |x| >= |p| && x[..|p|] == p {
      assert s[..|p|] == p;
      assert s[|p|..] == x[|p|..] + p;
      RemoveAllTrailing(x[|p|..], p);
    } else {
      assert s[..|p|] != p by {
        if |x| >= |p| {
          assert s[..|p|] == x[..|p|];
        } else {
          assert s[..|p|][|x|..] == p[..|p| - |x|];
        }
      }
      assert s[1..] == x[1..] + p;
      RemoveAllTrailing(x[1..], p);
      assert RemoveAll(s, p) == [s[0]] + RemoveAll(x[1..], p);
    }
  }

  /** Index of the first `c` in `s`. */
  function IndexOf(s: string, c: char): (k: nat)
    requires c in s
    ensures k < |s| && s[k] == c
    ensures forall i :: 0 <= i < k ==> s[i] != c
  {
    if s[0] == c then 0 else 1 + IndexOf(s[1..], c)
  }

  /** `s.split(c)`: the parts between occurrences of `c`; one more part than
      there are occurrences, empty parts included. */
  function SplitOn(s: string, c: char): (parts: seq<string>)
    ensures |parts| >= 1
    ensures forall i :: 0 <= i < |parts| ==> c !in parts[i]
    decreases |s|
  {
    if c in s then
      var k := IndexOf(s, c);
      [s[..k]] + SplitOn(s[k + 1..], c)
    else [s]
  }

  /** `sep.join(parts)` for a one-character separator. */
  function JoinWith(parts: seq<string>, sep: char): string
  {
    if |parts| == 0 then []
    else if |parts| == 1 then parts[0]
    else parts[0] + [sep] + JoinWith(parts[1..], sep)
  }

  /** Splitting and joining on the same character gives the string back. */
  lemma {:induction false} JoinSplit(s: string, c: char)
    ensures JoinWith(SplitOn(s, c), c) == s
    decreases |s|
  {
    if c in s {
      var k := IndexOf(s, c);
      var rest := SplitOn(s[k + 1..], c);
      assert SplitOn(s, c) == [s[..k]] + rest;
      assert ([s[..k]] + rest)[1..] == rest;
      JoinSplit(s[k + 1..], c);
      assert s == s[..k] + [c] + s[k + 1..];
    }
  }

  /** Joining parts that do not contain the separator and splitting again
      gives the parts back. */
  lemma {:induction false} SplitJoin(parts: seq<string>, c: char)
    requires |parts| >= 1
    requires forall i :: 0 <= i < |parts| ==> c !in parts[i]
    ensures SplitOn(JoinWith(parts, c), c) == parts
    decreases |parts|
  {
    if |parts| > 1 {
      var w, tail := parts[0], parts[1..];
      assert c !in w;
      assert JoinWith(parts, c) == w + [c] + JoinWith(tail, c);
      SplitOnAfter(w, JoinWith(tail, c), c);
      SplitJoin(tail, c);
      assert parts == [w] + tail;
    }
  }

  /** Splitting `w + [c] + rest`, when `w` has no `c`, gives `w` and then the
      parts of `rest`. */
  lemma SplitOnAfter(w: string, rest: string, c: char)
    requires c !in w
    ensures SplitOn(w + [c] + rest, c) == [w] + SplitOn(rest, c)
  {
    var s := w + [c] + rest;
    IndexOfAfter(w, rest, c);
    assert s[..|w|] == w;
    assert s[|w| + 1..] == rest;
  }

  /** The first `c` in `w + [c] + rest` is the one after `w` when `w` has none. */
  lemma {:induction false} IndexOfAfter(w: string, rest: string, c: char)
    requires c !in w
    ensures c in w + [c] + rest && IndexOf(w + [c] + rest, c) == |w|
    decreases |w|
  {
    var s := w + [c] + rest;
    assert s[|w|] == c;
    if w != [] {
      assert s[0] == w[0] && w[0] in w;
      assert s[1..] == w[1..] + [c] + rest;
      IndexOfAfter(w[1..], rest, c);
    }
  }

  /** Python's `str.isspace()`: the characters `str.strip()` removes. */
  predicate IsSpace(c: char) {
    var n := c as int;
    || (9 <= n <= 13)          // \t \n \v \f \r
    || (28 <= n <= 32)         // file, group, record and unit separators; space
    || n == 0x85 || n == 0xA0 || n == 0x1680
    || (0x2000 <= n <= 0x200A)
    || n == 0x2028 || n == 0x2029 || n == 0x202F || n == 0x205F || n == 0x3000
  }

  /** `s.lstrip()` */
  function StripLeading(s: string): (r: string)
    ensures |r| <= |s| && r == s[|s| - |r|..]
    ensures forall i :: 0 <= i < |s| - |r| ==> IsSpace(s[i])
    ensures r == [] || !IsSpace(r[0])
    decreases |s|
  {
    if s != [] && IsSpace(s[0]) then StripLeading(s[1..]) else s
  }

  /** The leading whitespace of `s` is exactly its first `k` characters. */
  lemma {:induction false} StripLeadingAt(s: string, k: nat)
    requires k < |s| && !IsSpace(s[k])
    requires forall i :: 0 <= i < k ==> IsSpace(s[i])
    ensures StripLeading(s) == s[k..]
  {
    if k > 0 {
      assert IsSpace(s[0]);
      StripLeadingAt(s[1..], k - 1);
      assert s[1..][k - 1..] == s[k..];
    }
  }

  /** `s.rstrip()` */
  function StripTrailing(s: string): (r: string)
    ensures |r| <= |s| && r == s[..|r|]
    ensures forall i :: |r| <= i < |s| ==> IsSpace(s[i])
    ensures r == [] || !IsSpace(r[|r| - 1])
    decreases |s|
  {
    if s != [] && IsSpace(s[|s| - 1]) then StripTrailing(s[..|s| - 1]) else s
  }

  /** The trailing whitespace of `s` is exactly what follows its first `k`
      characters. */
  lemma {:induction false} StripTrailingAt(s: string, k: nat)
    requires 0 < k <= |s| && !IsSpace(s[k - 1])
    requires forall i :: k <= i < |s| ==> IsSpace(s[i])
    ensures StripTrailing(s) == s[..k]
    decreases |s|
  {
    if k < |s| {
      assert IsSpace(s[|s| - 1]);
      StripTrailingAt(s[..|s| - 1], k);
      assert s[..|s| - 1][..k] == s[..k];
    }
  }

  /** `r` is `s` with all the whitespace at both ends cut off, `a` characters
      of it at the front. */
  predicate StrippedAt(r: string, s: string, a: int) {
    && 0 <= a && a + |r| <= |s|
    && r == s[a..a + |r|]
    && (forall i :: 0 <= i < a ==> IsSpace(s[i]))
    && (forall i :: a + |r| <= i < |s| ==> IsSpace(s[i]))
    && (r == [] || (!IsSpace(r[0]) && !IsSpace(r[|r| - 1])))
  }

  /** `s.strip()` */
  function Strip(s: string): string {
    StripTrailing(StripLeading(s))
  }

  /** `Strip` removes exactly the whitespace at both ends. */
  lemma StripCharacterization(s: string)
    ensures StrippedAt(Strip(s), s, |s| - |StripLeading(s)|)
  {
    StripKeepsMiddle(s);
    StripCutsBack(s);
    StripEndsSolid(s);
  }

  lemma StripKeepsMiddle(s: string)
    ensures var left := StripLeading(s); var a := |s| - |left|;
      Strip(s) == s[a..a + |Strip(s)|]
  {
    var left := StripLeading(s);
    var r := StripTrailing(left);
    var a := |s| - |left|;
    assert Strip(s) == r;
    assert left == s[a..];
    assert r == left[..|r|];
    SliceOfSuffix(s, a, |r|);
  }

  lemma SliceOfSuffix(s: string, a: nat, k: nat)
    requires a + k <= |s|
    ensures s[a..][..k] == s[a..a + k]
  {
  }

  lemma StripCutsBack(s: string)
    ensures var left := StripLeading(s); var a := |s| - |left|;
      forall i :: a + |Strip(s)| <= i < |s| ==> IsSpace(s[i])
  {
    var left := StripLeading(s);
    var r := StripTrailing(left);
    var a := |s| - |left|;
    forall i | a + |r| <= i < |s| ensures IsSpace(s[i]) {
      assert s[i] == left[i - a];
    }
  }

  lemma StripEndsSolid(s: string)
    ensures var r := Strip(s); r == [] || (!IsSpace(r[0]) && !IsSpace(r[|r| - 1]))
  {
    var left := StripLeading(s);
    var r := StripTrailing(left);
    assert r != [] ==> r[0] == left[0];
  }

  /** A string determines its stripped form: at most one `r` fits. */
  lemma StrippedAtUnique(r1: string, a1: int, r2: string, a2: int, s: string)
    requires StrippedAt(r1, s, a1) && StrippedAt(r2, s, a2)
    ensures r1 == r2
  {
    if r1 != [] && r2 != [] {
      assert s[a1] == r1[0] && s[a2] == r2[0];
      assert a1 == a2;
      var e1 := a1 + |r1| - 1;
      var e2 := a2 + |r2| - 1;
      assert s[e1] == r1[|r1| - 1] && s[e2] == r2[|r2| - 1];
      assert e1 == e2;
    }
  }

  /** Decimal digits of `n`, as `str(n)` writes them. */
  function Decimal(n: nat): (r: string)
    ensures |r| >= 1 && (n >= 10 ==> |r| >= 2)
    ensures forall i :: 0 <= i < |r| ==> IsDigit(r[i])
    ensures r[0] == '0' ==> n == 0
  {
    if n < 10 then [(48 + n) as char] else Decimal(n / 10) + [(48 + n % 10) as char]
  }

  /** The number a string of decimal digits spells. */
  function DigitsValue(s: string): nat
    requires forall i :: 0 <= i < |s| ==> IsDigit(s[i])
  {
    if s == [] then 0
    else
      assert IsDigit(s[|s| - 1]);
      10 * DigitsValue(s[..|s| - 1]) + (s[|s| - 1] as int - 48)
  }

  /** `Decimal(n)` spells `n`. */
  lemma {:induction false} DecimalValue(n: nat)
    ensures DigitsValue(Decimal(n)) == n
  {
    if n >= 10 {
      var r := Decimal(n);
      assert r[..|r| - 1] == Decimal(n / 10);
      DecimalValue(n / 10);
    }
  }

  /** Different numbers are written differently. */
  lemma {:induction false} DecimalInjective(a: nat, b: nat)
    requires Decimal(a) == Decimal(b)
    ensures a == b
  {
    if a >= 10 && b >= 10 {
      var da, db := Decimal(a), Decimal(b);
      assert da[|da| - 1] == db[|db| - 1];
      assert da[..|da| - 1] == Decimal(a / 10);
      assert db[..|db| - 1] == Decimal(b / 10);
      DecimalInjective(a / 10, b / 10);
    }
  }

  /** Python's `a < b` on strings: lexicographic by code point, a proper
      prefix before its extensions. */
  predicate LexLess(a: string, b: string)
    decreases |a|
  {
    if a == [] then b != []
    else if b == [] then false
    else if a[0] != b[0] then a[0] < b[0]
    else LexLess(a[1..], b[1..])
  }

  lemma {:induction false} LexLessIrreflexive(a: string)
    ensures !LexLess(a, a)
    decreases |a|
  {
    if a != [] {
      LexLessIrreflexive(a[1..]);
    }
  }

  lemma {:induction false} LexLessTransitive(a: string, b: string, c: string)
    requires LexLess(a, b) && LexLess(b, c)
    ensures LexLess(a, c)
    decreases |a|
  {
    if a != [] && b != [] && c != [] && a[0] == b[0] && b[0] == c[0] {
      LexLessTransitive(a[1..], b[1..], c[1..]);
    }
  }

  /** Any two different strings are ordered one way or the other, and not both. */
  lemma {:induction false} LexLessTotal(a: string, b: string)
    requires a != b
    ensures LexLess(a, b) != LexLess(b, a)
    decreases |a|
  {
    if a != [] && b != [] && a[0] == b[0] {
      assert a == [a[0]] + a[1..] && b == [b[0]] + b[1..];
      LexLessTotal(a[1..], b[1..]);
    }
  }
}

=== FILE: update_manifest.dfy ===
/** `update_manifest` (update_manifests.py) without the file I/O: the prior
    entries come in, the manifest to be written comes out. */
module ManifestUpdate {
  import opened Options
  import opened Text
  import opened Identifiers
  import opened LayoutMetadata
  import opened Manifests
  import opened BatchIds
  import opened ManifestMerge
  import opened MergeProperties
  import opened Sorting

  /** The stable id lookup: a prior entry with the derived id, else the
      prior id recorded for this filename when it is not empty, else the
      derived id. */
  method StableId(ctx: Context, idByFilename: map<string, string>, filename: string) returns (itemId: string)
    requires idByFilename == FilenameIndex(ctx.prior)
    ensures itemId == ResolveId(ctx, filename)
  {
    var derivedId := DeriveId(filename, ctx.extension);
    var existing := FindExistingItemById(ctx.prior, derivedId);
    if existing.Some? {
      itemId := existing.value.id;
    } else if filename in idByFilename && idByFilename[filename] != "" {
      itemId := idByFilename[filename];
    } else {
      itemId := derivedId;
    }
  }

  /** The field assignments on an existing entry, written statement by
      statement as in update_manifests.py:181-192; `Touch` states the same
      update as one function. */
  method UpdateTechnicalFields(existing: Item, asset: Asset, now: string) returns (item: Item)
    ensures item == Touch(existing, asset, now)
  {
    item := existing;
    item := item.(url := Some(asset.url), bytes := Some(asset.size), sha256 := Some(asset.sha256),
                  updatedAt := Some(now));
    if item.filename.None? || item.filename.value != asset.name {
      item := item.(filename := Some(asset.name));
    }
  }

  /** The field assignments that fill the UI fields, written statement by
      statement as in update_manifests.py:207-228; `FillUi` states the same
      update as one function. */
  method FillUiFields(ctx: Context, itemId: string, base: Item, asset: Asset) returns (item: Item)
    ensures item == FillUi(ctx, itemId, base, asset)
  {
    item := base;
    match ctx.kind {
      case Layout =>
        var (layoutName, layoutDescription) := LayoutFields(asset.layoutDoc);
        item := item.(name := Some(layoutName), shortDescription := Some(layoutDescription));
        if item.languageTag.None? {
          item := item.(languageTag := Some(""));
        }
      case Dictionary =>
        if itemId in ctx.metadata {
          var entry := ctx.metadata[itemId];
          item := item.(name := Some(entry.name.GetOr("")),
                        shortDescription := Some(entry.shortDescription.GetOr("")),
                        languageTag := Some(entry.languageTag.GetOr("")));
        } else {
          if Blank(item.name) {
            item := item.(name := Some(ReadableName(itemId)));
          }
          if Blank(item.shortDescription) {
            item := item.(shortDescription := Some(""));
          }
          if Blank(item.languageTag) {
            item := item.(languageTag := Some(""));
          }
        }
      case Unlisted =>
    }
  }

  /** The body of the loop for an asset that carries the extension: pick its
      id, file its entry, record the id as taken. */
  method MergeAsset(ctx: Context, idByFilename: map<string, string>, items: map<string, Item>,
                    processed: set<string>, asset: Asset)
    returns (items': map<string, Item>, processed': set<string>)
    requires idByFilename == FilenameIndex(ctx.prior)
    requires EndsWith(asset.name, ctx.extension)
    ensures MergeState(items', processed') == ProcessAsset(ctx, MergeState(items, processed), asset)
  {
    var itemId := StableId(ctx, idByFilename, asset.name);
    itemId := UniqueId(itemId, processed, items.Keys);
    processed' := processed + {itemId};

    var item: Item;
    if itemId in items {
      item := UpdateTechnicalFields(items[itemId], asset, ctx.now);
    } else {
      item := NewItem(itemId, asset, ctx.now);
    }
    item := FillUiFields(ctx, itemId, item, asset);
    // The source files a new entry before filling its UI fields through an
    // alias; filing the finished value is the same.
    items' := items[itemId := item];
  }

  /** The loop over the release assets, from the prior entries keyed by id
      to the map that is written out. */
  method MergeAssets(ctx: Context, assets: seq<Asset>) returns (items: map<string, Item>, processed: set<string>)
    ensures MergeState(items, processed) == Merge(ctx, assets)
  {
    var idByFilename := BuildFilenameIndex(ctx.prior);
    items := IndexById(ctx.prior);
    processed := {};
    for n := 0 to |assets|
      invariant MergeState(items, processed) == Fold(ctx, Initial(ctx), assets[..n])
    {
      assert assets[..n + 1][..n] == assets[..n];
      var asset := assets[n];
      var filename := asset.name;
      if !EndsWith(filename, ctx.extension) {
        continue;
      }
      items, processed := MergeAsset(ctx, idByFilename, items, processed, asset);
    }
    assert assets[..|assets|] == assets;
  }

  /** Merges the release's assets into the prior entries and lists the result
      by id. `now` is the timestamp written both as every touched entry's
      `updatedAt` and as the manifest's `generatedAt`; `metadata` is the
      dictionary metadata table, empty when there is none. */
  method UpdateManifest(prior: seq<Item>, kind: Kind, releaseTag: string, assets: seq<Asset>,
                        extension: string, metadata: map<string, UiMetadata>, now: string)
    returns (manifest: Manifest)
    ensures manifest.schemaVersion == SchemaVersion
    ensures manifest.generatedAt == now && manifest.releaseTag == releaseTag
    ensures SortedById(manifest.items)
    ensures ListsMap(manifest.items, Merge(Context(prior, kind, extension, metadata, now), assets).items)
    ensures forall i :: 0 <= i < |prior| ==>
      exists j :: 0 <= j < |manifest.items| && manifest.items[j].id == prior[i].id
    ensures forall i, j :: 0 <= i < |manifest.items| && 0 <= j < |manifest.items| && i != j ==>
      manifest.items[i].id != manifest.items[j].id
  {
    var ctx := Context(prior, kind, extension, metadata, now);
    var items, processed := MergeAssets(ctx, assets);
    MergeKeepsPriorIds(ctx, assets);
    var sorted := SortById(items);
    forall i, j | 0 <= i < |sorted| && 0 <= j < |sorted| && i != j
      ensures sorted[i].id != sorted[j].id
    {
      SortedDistinct(sorted, i, j);
    }
    manifest := Manifest(SchemaVersion, now, releaseTag, sorted);
  }
}
